=== FILE: README.md ===
# VideoPlayer component — a Dafny model

`app.js` defines `VideoPlayer`, a custom element that draws its own controls
over a native `<video>`. The controls are a play/pause button with an
overlay, a volume slider and mute button, a seek bar with a hover preview,
a rewind button, fullscreen and picture-in-picture buttons, and a settings
menu. The menu has a playback-rate list and a (handler-less) quality list.

The element keeps these widgets in step with the media element. It also
registers its listeners when it is attached to a document and removes
them when it is detached.

This project models that behaviour as pure functions over one immutable
record, `Player.PlayerState`. The record holds:

- the media element's state (`Backend.Media`);
- the platform's fullscreen and picture-in-picture state;
- the classes, values and texts of the elements the handlers write;
- the multiset of registered `(source, event, handler)` listeners.

Each handler of `app.js` is one function.

`Component.Step` is the component as written. An input reaches the page as
a DOM event on one element. The platform applies its own effect first,
then every listener registered on that element for that event type runs.
A listener registered twice runs twice. Mounting runs `connectedCallback`:
a new generation of bound handlers is registered on top of whatever is
still registered. Unmounting runs the teardown of `disconnectedCallback`
as written (app.js:451-468), so some listeners survive it and pile up over
remounts. Then the platform's removing steps follow (`Component.RemovingSteps`):

- the media element, removed with the component, pauses;
- a container that is the fullscreen element leaves fullscreen, and
  `fullscreenchange` is fired at the document, where only listeners that
  survived the teardown answer it.

`Component.CorrectedStep` differs only in its teardown, which removes every
listener the mount registered.

Two invariants are stated:

- `Component.Sound` is kept by the component as written. It says:
  - exactly one of play/pause is shown;
  - the volume icon shows the volume;
  - the settings lists are coherent;
  - every registered triple belongs to the listener table of the mount
    that created its handler;
  - while mounted, the current table is registered.
- `Component.Valid` is kept by the corrected component. It adds two facts:
  - the fullscreen icons show the platform's state;
  - the registrations are exactly one listener table while mounted, and
    nothing while detached.

  The first fact holds only for inputs whose fullscreen changes find the
  component mounted (`Component.CorrectedWellFormed`). Lemmas show how the
  icons go out of step otherwise: a platform change while detached, Escape
  while detached, or an unmount while the container is fullscreen.

Modules:

| module | file | concern |
|---|---|---|
| `Wrappers` | wrappers.dfy | `Option`, `Result` |
| `TimeFormat` | time_format.dfy | `formatTime` through the arithmetic of `Date.toISOString` |
| `Backend` | backend.dfy | the media element: seeks, `play()`, `pause()`, `Math.round`/`Math.floor` |
| `Listeners` | listeners.dfy | `addEventListener`/`removeEventListener`, the mount and the teardown |
| `Player` | player.dfy | the state record and the first render |
| `Transport` | transport.dfy | play/pause and volume |
| `SeekBar` | seek_bar.dfy | elapsed time, progress, seek, rewind, duration, hover preview |
| `Settings` | settings.dfy | the settings menu and playback rate |
| `Screen` | screen.dfy | fullscreen and picture-in-picture |
| `Component` | component.dfy | event dispatch, lifecycle, the global invariant |
| `Lifecycle` | lifecycle.dfy | the deferred setup: the order of mounts, unmounts and setups |

Assumptions about the platform are explicit:

- in `Backend`: a `currentTime` write lands inside `[0, duration]`, and
  `play()` on ended media restarts from 0;
- in `Component.DefaultAction`: reaching the end pauses the media, and a
  fullscreen change the platform makes on its own flips the document's
  fullscreen state and leaves the container not fullscreen
  (`Screen.ChangeByPlatform`);
- in `Component.RemovingSteps`: leaving the document pauses the media and
  takes a fullscreen container out of fullscreen;
- in `Component.FullscreenChangeOf`: Escape while something is fullscreen
  leaves fullscreen.

Where the platform decides, the model takes the decision as a parameter:

- whether a fullscreen or PiP request is granted;
- whether PiP is supported;
- the pointer position;
- the value a slider reports.

The fullscreen and PiP listeners only ask the platform for a change. The
platform makes the change once, however many listeners asked, and then
fires `fullscreenchange` (`Component.PlatformAnswer`). Escape while
something is fullscreen is different: the browser leaves fullscreen on its
own, whatever the page listens to. The keyboard listener's own request
(app.js:386-392) adds nothing to that.

## Model

| member | source | states |
|---|---|---|
| TimeFormat.FormatTime | app.js:45-51 | fails exactly when the Date is out of range (the RangeError of `toISOString`). Otherwise both fields are two digits. In the four-digit-year range they are the minute of the hour and the second of the minute. Outside that range the fixed offsets shift, so they are the hour and the minute |
| TimeFormat.FormatShowsWithinHour | app.js:45-51 | for every count in the four-digit-year range, the "mm:ss" text reads back as the count modulo one hour |
| TimeFormat.FormatBelowHourRecomposes | app.js:45-51 | below one hour, 60·minutes + seconds gives back the input (round trip) |
| TimeFormat.FormatDropsHours | app.js:45-51 | adding 3600 s changes neither field: hours are not shown |
| TimeFormat.FormatExamples | app.js:45-51 | 0, 65, 125, 3599 and 3600 s give 00:00, 01:05, 02:05, 59:59 and 00:00 |
| Backend.Floor | app.js:87 | `Math.floor` is the greatest whole number not above its argument |
| Backend.Round | app.js:77 | `Math.round` lands within half a unit of its argument, with halves going up |
| Backend.SeekTarget | app.js:95 | a seek lands inside [0, duration]: on the target when it is inside, else on the nearer end |
| Backend.SetCurrentTime | app.js:95 | a `currentTime` write seeks to the clamp of the target into [0, duration] and changes nothing else but `ended` |
| Backend.Play | app.js:12 | the media plays; ended media first returns to 0 |
| Backend.Pause | app.js:14 | the media pauses and nothing else changes |
| Transport.TogglePlay | app.js:10-16 | the result is paused exactly when the media was playing and not ended; volume, rate and duration are kept |
| Transport.PauseStateIcons | app.js:19-29 | the play image, the overlay and its icon are shown exactly when the media is paused or ended; the pause image is shown exactly otherwise |
| Transport.UpdatePauseState | app.js:18-30 | the transport icons become those `PauseStateIcons` gives for the media; nothing else changes |
| Transport.PlaybackHandler | app.js:321-324 | toggles the transport and the icons show the new state |
| Transport.PlaybackFlipsIcons | app.js:321-324 | with a non-empty resource and icons in step, one activation swaps which of play and pause is shown |
| Transport.VolumeIconsFor | app.js:58-74 | exactly one volume icon is shown: muted iff 0, up iff above 0.5, low otherwise |
| Transport.VolumeIconThresholds | app.js:58-74 | on [0, 1] the low icon covers (0, 0.5] and the up icon covers (0.5, 1] |
| Transport.UpdateVolume | app.js:32-37 | the media is unmuted and takes the slider's value; nothing else changes |
| Transport.UpdateVolumeBtns | app.js:53-56 | the media volume equals the slider value and the icons follow it |
| Transport.VolumeHandler | app.js:326-329 | after a slider change the media is unmuted at the slider's value and the icons are those of that value |
| Transport.PlaybackTwiceCancels | app.js:321-324 | two copies of the playback listener answering one click leave the media paused or playing as before, with matching icons |
| Transport.ToggleMute | app.js:39-43 | the slider becomes 1 exactly when the volume was 0, else 0; the media and the icons follow |
| Transport.ToggleMuteTwiceRestoresExtremes | app.js:39-43 | muting twice restores a volume of 0 or 1 |
| Transport.ToggleMuteForgetsLevel | app.js:40 | a level of 0.3 is muted to 0 and then unmuted to 1, not back to 0.3 |
| Transport.MuteTwiceIconSequence | app.js:39-43 | from full volume, the icons go up → muted → up |
| SeekBar.UpdateTimeElapsed | app.js:76-84 | fails exactly when the rounded position is not a valid Date. Otherwise only the label changes, and it shows the rounded position modulo one hour |
| SeekBar.UpdateProgress | app.js:86-89 | both bars show the same whole second, the one containing the position |
| SeekBar.TimeUpdateHandler | app.js:335-338 | the media is untouched; both bars show the floor of the position, or nothing changes when the label throws |
| SeekBar.SkipTarget | app.js:92-94 | `data-seek` wins over the bar's value when present; "NaN" has no target |
| SeekBar.SkipAhead | app.js:91-98 | the media seeks to the target and both bars show it. A target inside the resource is reached exactly. A NaN target changes nothing |
| SeekBar.HoverTakesPrecedence | app.js:92-94 | after a hover, the bar's own value is ignored |
| SeekBar.SeekThenTimeUpdateAgree | app.js:91-98 | after a seek to a whole second, the next `timeupdate` keeps media and bars on that second |
| SeekBar.ResetProgressBar | app.js:215-218 | both bars go to 0 and nothing else changes |
| SeekBar.RewindAsWritten | app.js:100-107 | the rewind as written: within the first ten seconds the media lands on 0, later ten seconds back; only the position (and `ended`) changes |
| SeekBar.RewindAsWrittenSeeksNegative | app.js:102-106 | within the first ten seconds the second write asks for −10 |
| SeekBar.RewindTarget | app.js:100-107 | the intended target: ten seconds back, never below 0 and never past the current position |
| SeekBar.Rewind | app.js:100-107 | the intended rewind lands on `RewindTarget` |
| SeekBar.RewindAsWrittenMatchesClamped | app.js:100-107 | against a clamping backend, the written rewind and the intended one give the same media state |
| SeekBar.RewindExamples | app.js:100-107 | 5 s rewinds to 0 and 37 s to 27 |
| SeekBar.InitializeVideo | app.js:220-228 | both bars get the rounded duration as `max` and the label shows it modulo one hour; an invalid Date changes nothing |
| SeekBar.DurationLabelExample | app.js:220-228 | a 125 s resource shows "02:05" |
| SeekBar.PreviewSecond | app.js:110-114 | NaN exactly while the bar has no `max`. Otherwise it is the nearest second to ratio·max, inside [0, max] |
| SeekBar.UpdateSeekTooltip | app.js:109-126 | records the hovered second (or "NaN") and shows it in the tooltip as "mm:ss"; playback is untouched |
| SeekBar.HoverThenInputSeeksHovered | app.js:91-126 | a hover then an `input` seeks the media and both bars to the hovered second |
| Settings.UpdateSettingsUI | app.js:166-179 | the main list slides out. The playback-rate list slides in with height 170px, or the quality list slides in. The open state is kept |
| Settings.HandleBackButtonClick | app.js:195-205 | the main list slides back in, both sub-lists out, and the height is 91px |
| Settings.ToggleShowSettings | app.js:154-160 | only `openMenu` flips |
| Settings.ApplyMenuRefinesNavigate | app.js:154-205 | every menu handler keeps the classes coherent and shows the panel the reference navigator reaches |
| Settings.RunMenuRefinesNavigate | app.js:154-205 | over any click sequence, the two sub-lists are never both shown and the panel follows the navigator |
| Settings.InitialMenuCoherent | app.js:839-881 | the rendered menu is coherent and shows the main list |
| Settings.ReopenKeepsPanel | app.js:154-160 | closing and reopening restores the menu exactly |
| Settings.UpdatePlaybackRate | app.js:181-193 | a parsed rate becomes the media's rate, labelled "Normal" iff it is 1. An unparsable one changes nothing |
| Settings.UpdatePlaybackRateIdempotent | app.js:181-193 | choosing a rate twice equals choosing it once |
| Screen.ToggleFullScreen | app.js:207-213 | exit is requested exactly when something is fullscreen |
| Screen.Grant | app.js:207-213 | a granted request makes the player's container the fullscreen element; a granted exit leaves no fullscreen element; PiP is kept |
| Screen.GrantedToggleFlips | app.js:207-213 | a granted toggle always flips the platform's fullscreen state |
| Screen.ToggleFullScreenBtn | app.js:128-136 | each fullscreen image flips its `hidden` class |
| Screen.OnFullscreenChange | app.js:435-447 | the icons flip and the control bar's class shows the platform's state |
| Screen.FullscreenFlip | app.js:435-447 | a platform change answered by one listener keeps the icons in step |
| Screen.FlipsKeepSync | app.js:435-447 | icons in step stay in step over any number of platform changes |
| Screen.DoubledListenerDesyncs | app.js:435-447 | two copies of the listener leave the icons showing the opposite of the platform |
| Screen.ChangeByPlatform | app.js:435-447 | a change the platform makes on its own flips the document's fullscreen state, leaves the container not fullscreen and keeps PiP |
| Screen.SwitchByPlatform | app.js:435-447 | a switch of the fullscreen element keeps the document fullscreen; the container is fullscreen afterwards exactly when it takes over |
| Screen.SwitchDesyncs | app.js:435-447 | one listener answering such a switch leaves icons that were in step showing the opposite of the platform |
| Screen.EscapeRequest | app.js:386-392 | Escape requests an exit exactly when something is fullscreen |
| Screen.TogglePiP | app.js:138-152 | exit when in PiP; otherwise request when supported, and report unsupported when not |
| Screen.PiPHandler | app.js:138-152 | only the PiP state can change, and it flips exactly when granted and possible |
| SeekBar.RewindTwiceAsWritten | app.js:100-107 | two copies of the rewind listener answering one click move back 20 seconds |
| Listeners.AddListener | app.js:396 | the triple is registered; an identical triple is not added twice |
| Listeners.RemoveListener | app.js:452 | the triple is unregistered; nothing else changes |
| Listeners.AddAll | app.js:396-433 | registers exactly the listed triples and keeps triples unique |
| Listeners.RemoveAll | app.js:452-467 | unregisters exactly the listed triples |
| Listeners.MountCallsRouted | app.js:304-447 | every triple one mount registers is an entry of the listener table |
| Listeners.RoutedInMountCalls | app.js:304-447 | every entry of the listener table is registered by the mount |
| Listeners.MountCallsAreTable | app.js:376-447 | the registration calls of one mount are exactly the listener table |
| Listeners.TableHasOneHandlerPerPair | app.js:376-447 | the table answers each (source, event) pair with one handler |
| Listeners.Mount | app.js:320-448 | a mount adds exactly the table of its generation |
| Listeners.TeardownCallsBefore | app.js:452-459 | the eight removals before line 460, each an entry of the current table |
| Listeners.TeardownCallsAfter | app.js:461-467 | the four removals after line 460, each an entry of the current table |
| Listeners.DisconnectAsWritten | app.js:451-468 | the teardown as written: removes the listed triples, and the fullscreen-button click stays registered (line 460 adds the triple registered at line 407, which changes nothing while mounted) |
| Listeners.TeardownAsWrittenMembers | app.js:451-468 | after mount and the teardown as written, what remains is every listener it does not remove, the fullscreen click among them |
| Listeners.TeardownAsWrittenLeaks | app.js:460 | the fullscreen click, keydown, fullscreenchange, ended, menu and rate listeners survive the teardown |
| Listeners.RemountAsWrittenMembers | app.js:309-318 | a remount after that teardown holds both generations' leftovers and the new table |
| Listeners.RemountAsWrittenDoublesHandlers | app.js:435-468 | after such a remount the fullscreen button and `fullscreenchange` each have two handlers |
| Listeners.Disconnect | app.js:451-468 | the complete teardown removes exactly the table of the mount |
| Listeners.DisconnectUndoesMount | app.js:450-468 | teardown after mount restores the registrations exactly |
| Listeners.RemountRegistersOnce | app.js:309-318 | mount, complete teardown, mount: triples unique, one handler per pair, exactly the new table |
| Listeners.HandlerCount | app.js:376-447 | the listeners an input runs: none exactly when no registered triple listens on its element and event type |
| Listeners.CountOfTable | app.js:376-447 | registrations that are exactly one table answer each pair of the table once and every other pair not at all |
| Listeners.TeardownAsWrittenCount | app.js:451-468 | after a mount and the teardown as written, a pair is still answered once when its handler was not removed, else not at all |
| Listeners.RemountAsWrittenCount | app.js:309-468 | after a second mount, such a pair is answered twice, every other pair of the table once |
| Listeners.LeftCounts | app.js:376-468 | the teardown as written leaves one keyboard listener and one `fullscreenchange` listener |
| Listeners.DoubledCounts | app.js:309-468 | after the remount the keyboard, the settings button and `fullscreenchange` each have two listeners |
| Listeners.ConformingHandlersRunTableCode | app.js:320-374 | a registered handler of any mount runs the same code as the current table's handler for its pair: each mount rebinds the same closures |
| Listeners.MountConforms | app.js:320-447 | after a mount every registered triple is still an entry of the table of its own mount |
| Listeners.DisconnectAsWrittenConforms | app.js:451-468 | so is every triple left by the teardown as written, the fullscreen click included |
| Component.ConnectedCallback | app.js:309-318 | a new generation is registered on top of what is still registered: a triple is registered afterwards exactly when it was before or is in the new table; nothing else changes |
| Component.DisconnectedCallback | app.js:451-468 | the teardown as written: what remains is the fullscreen click plus every registered triple outside the twelve removals; nothing else changes |
| Component.CorrectedDisconnectedCallback | app.js:451-468 | the complete teardown removes exactly the current table: a component holding one table holds nothing afterwards |
| Component.EndedHandler | app.js:304-307 | the play image shows exactly when paused or ended, and both bars go to 0 |
| Component.OnKeyDown | app.js:376-393 | Space toggles playback and M toggles mute. Escape changes nothing in the component: its request to leave fullscreen is what the platform does on Escape anyway (`Component.FullscreenChangeOf`). Any other key changes nothing |
| Component.ButtonRate | app.js:866-871 | a rate button parses to its `data-rate`, in [0.5, 2], the fourth to 1; any other element parses to NaN |
| Component.Answer | app.js:320-447 | one run of a listener keeps the registrations and the platform's state. Only the `fullscreenchange` listener writes the fullscreen icons. Widgets that agree and a volume icon that is right stay so, and the slider listener makes the icon right |
| Component.AnswerTimes | app.js:376-447 | a listener run n times: no run changes nothing, one run is `Answer`, and every count keeps what one run keeps |
| Component.AnswerTwice | app.js:376-447 | two registrations run the listener on the result of its first run |
| Component.Dispatch | app.js:376-447 | after the platform's effect the table's handler runs once per registration. With none registered only the platform's effect remains. A platform change answered by exactly one listener keeps the icons in step |
| Component.NotifyFullscreenChange | app.js:435-447 | `fullscreenchange` runs every listener registered on the document: with none nothing changes, with one it is `onFullscreenChange`, and only the fullscreen icons and class can change |
| Component.GrantFullscreen | app.js:207-213 | the platform takes the state `Grant` gives, then notifies; only the platform, the fullscreen icons and the class change. With one listener a change keeps icons in step, with none they stay as they were |
| Component.FullscreenChangeOf | app.js:386-392 | Escape changes fullscreen exactly when something is fullscreen, whatever is registered, and then exits. A click changes it exactly when a listener heard the fullscreen button and the platform grants it, and then asks for `toggleFullScreen`'s request. Every change flips the platform's state |
| Component.PlatformAnswer | app.js:128-213 | the platform carries out the fullscreen change once, however many listeners asked, then fires `fullscreenchange`; PiP only when the PiP listener asked. Nothing else changes when no listener heard the input, except Escape's exit. Icons in step stay in step when one `fullscreenchange` listener is registered |
| Component.RemovingSteps | app.js:451-468 | after the unmount's callback the media is paused, and a fullscreen container leaves fullscreen. Only the media, the platform and the fullscreen icons can change. One surviving `fullscreenchange` listener keeps icons in step; with none they stay as they were |
| Component.Unmount | app.js:451-468 | unmounting as written: the teardown as written, then the media paused and a fullscreen container taken out of fullscreen. The play/pause icons are not updated |
| Component.Input | app.js:376-447 | an input other than mount or unmount keeps the registrations; after Escape nothing is fullscreen; an input no listener hears, other than Escape's exit, has only the platform's effect |
| Component.Step | app.js:304-468 | the component as written: mounting registers a new generation over what remains and changes nothing else; unmounting leaves it detached; other inputs keep the registrations |
| Component.CorrectedStep | app.js:451-468 | the component with the complete teardown: it differs from `Step` only on unmount, which leaves a one-table component with nothing registered and the media paused |
| Component.StepRunsListeners | app.js:376-447 | an input that asks the platform for nothing ends with the table's handler run once per registered listener, after the platform's effect |
| Component.InitialValid | app.js:768-906 | the first render satisfies both invariants |
| Component.StepPreservesSound | app.js:304-468 | every well-formed input to the component as written keeps `Sound` |
| Component.RunPreservesSound | app.js:304-468 | every admissible input sequence to the component as written keeps `Sound` |
| Component.CorrectedStepPreservesValid | app.js:376-468 | with the complete teardown, every input keeps `Valid` whose fullscreen change, if any, finds the component mounted and is not the exit of an unmount |
| Component.CorrectedRunPreservesValid | app.js:376-468 | the same over every such input sequence |
| Component.UnmountedFullscreenChangeDesyncs | app.js:435-447 | for the corrected component: a fullscreen change while detached is missed, and the icons are out of step after remounting |
| Component.CorrectedSpaceToggles | app.js:376-382 | with the complete teardown, Space on a mounted component toggles playback once |
| Component.CorrectedDetachedIgnoresKeys | app.js:376-393 | with the complete teardown, a detached component ignores every key, apart from Escape while something is fullscreen |
| Component.CorrectedDetachedEscapeDesyncs | app.js:386-392 | for the corrected component: Escape while detached and fullscreen leaves fullscreen unanswered, so the icons are out of step |
| Component.CorrectedUnmountInFullscreenDesyncs | app.js:435-468 | for the corrected component: unmounting while the container is fullscreen exits fullscreen after the listener is gone, so after remounting the icons are out of step |
| Component.FirstUnmountInFullscreenAnswered | app.js:435-468 | as written, unmounting a once-mounted component while its container is fullscreen keeps the icons in step, because the `fullscreenchange` listener survives the teardown |
| Component.RemountAfterPlayingShowsPlaying | app.js:320-447 | unmounting while playing pauses the media, and no listener updates the play/pause icons (none is registered for `pause`), so after remounting they show playback running |
| Component.RemountSingleHandlers | app.js:309-318 | with the complete teardown, unmount then mount leaves exactly one handler per pair, from the new mount |
| Component.MountAnswersOnce | app.js:309-318 | a mount into a component with nothing registered answers each pair once |
| Component.RemountAsWrittenRegistrations | app.js:309-468 | a fresh component mounted, unmounted as written and mounted again holds what the teardown left plus the new table |
| Component.OneKeyboardListenerToggles | app.js:376-382 | with one keyboard listener, Space toggles playback |
| Component.TwoKeyboardListenersCancel | app.js:376-382 | with two keyboard listeners, Space toggles playback and toggles it back |
| Component.TwoSettingsListenersCancel | app.js:154-160 | with two settings-button listeners, a click opens and closes the menu |
| Component.TwoFullscreenListenersDesync | app.js:435-447 | with two `fullscreenchange` listeners, a platform change leaves icons that were in step showing the opposite |
| Component.DetachedSpaceStillToggles | app.js:376-468 | after the teardown as written, Space still toggles playback of the detached component |
| Component.RemountedSpaceKeepsPlayback | app.js:376-468 | after a remount under the teardown as written, Space leaves playback as it was |
| Component.RemountedSettingsButtonStuck | app.js:372-468 | after such a remount the settings button never opens or closes the menu |
| Component.RemountedFullscreenChangeDesyncs | app.js:435-468 | after such a remount a platform fullscreen change leaves icons that were in step showing the opposite |
| Lifecycle.SetupCalls | app.js:320-448 | the deferred setup registers every entry of the mount's table except the `ended` closure, and nothing of another mount |
| Lifecycle.Setup | app.js:320-448 | after the setup a triple is registered when it was before or is in the table without the `ended` closure, and only then; triples stay unique |
| Lifecycle.TeardownAsWritten | app.js:451-468 | before any setup ran only `initializeVideo` is removed; after one, the teardown of the last setup's generation as written |
| Lifecycle.Step | app.js:309-318 | a mount registers the `ended` closure and queues its setup; an unmount tears down with the fields as they are and keeps the queue; a setup registers the rest of its table and rebinds the fields, attached or not |
| Lifecycle.EarlyUnmountRegistersTwice | app.js:309-318 | mount, unmount in the same task, mount: two whole tables end up registered, so the play, mute and rewind buttons each have two click listeners |
| Lifecycle.EarlyUnmountLeaksForever | app.js:309-318 | after that sequence, whatever callbacks follow, the play, mute and rewind listeners and every other closure the first mount registered stay registered |
| Lifecycle.CorrectedStep | app.js:451-468 | an unmount that cancels the queued setup removes every listener of the last mount; everything else is as `Lifecycle.Step` |
| Lifecycle.CorrectedRunKeepsLastMount | app.js:309-318 | under the corrected lifecycle, over any callback sequence, only the last mount's listeners are registered, each (element, event) pair at most once, and nothing while detached |
| Lifecycle.CorrectedEarlyUnmountRegistersOnce | app.js:309-318 | the same early unmount leaves exactly the second mount's table, one click listener on the play button, and an unmount removes all of it |

## Left out

- Rendering: the lit-html template, the stylesheet and the asset markup (app.js:470-916). Elements are record fields, and the first render's classes are `Player.Initial`.
- Element lookup and the `canPlayType` probe (app.js:230-302). The model assumes every element exists and the controls are visible.
- The platform calls for fullscreen and PiP, their promises and `try`/`catch`, and all `console` output. Only the request chosen is modelled; whether the platform grants it is a parameter.
- Layout and pixels: the control-bar and overlay heights (app.js:390-391, 440-445) and the tooltip's `left` (app.js:124-125). Escape writes 86% where `fullscreenchange` writes 87%; this is visual only.
- The `datetime` attributes (app.js:80-83, 227). They repeat the label's fields.
- `setTimeout(…, 0)` before the listeners are registered (app.js:314-317): `Component.Step` registers the whole table when the component mounts. The deferral, and an unmount that comes before the setup runs, are modelled in `Lifecycle` at the level of registrations only.
- Screen.ChangeByPlatform: a platform change that keeps the document fullscreen (another element takes over, or leaving a nested element returns to the container) is not an input of `Component`. `Screen.SwitchDesyncs` shows that even one listener answers it with icons out of step, so the fullscreen half of `Valid` covers only changes that flip the document's state.
- `preventDefault` for Space and Escape (app.js:379, 387). The keyboard listener sits on `window`, so it cancels those keys in every field of the host page, and Space typed anywhere on the page toggles playback. The model has no focus and no default actions of the page, so neither effect is modelled.
- Backend.Play: the promise `play()` returns is ignored (app.js:12). When it rejects (an autoplay policy, no playable source) the media stays paused, but the model always plays.
- Element inputs (clicks, slider changes, seek-bar input and hover) are taken to arrive only while the component is attached: the controls of a detached shadow tree are not rendered. Keys on `window`, `fullscreenchange` on `document` and media events can arrive at any time.
- Floating point:
  - times, volumes and rates are Dafny `real`;
  - `parseFloat`/`parseInt` results arrive already parsed (`Option<real>` for the rate);
  - the seek bar's value is an `int`;
  - a range input's snapping of assigned values to its step and bounds is not modelled.
- Component.CorrectedWellFormed: for the corrected component only, `Valid` is stated for inputs whose fullscreen change finds the component mounted. This excludes three inputs: a platform change while detached, Escape while detached and fullscreen, and an unmount while the container is fullscreen. Each breaks the icons' sync, as `Component.UnmountedFullscreenChangeDesyncs`, `Component.CorrectedDetachedEscapeDesyncs` and `Component.CorrectedUnmountInFullscreenDesyncs` show. The component as written keeps only `Sound`, which says nothing about the fullscreen icons.
- Component.RemovingSteps: the media element's pause waits for a stable state and is skipped when the element is back in a document by then. The model treats every unmount as lasting that long, so a move within one task also pauses. The `timeupdate` and `pause` events of that pause are not dispatched: both teardowns remove the `timeupdate` listener, and app.js has no `pause` listener. Whether leaving the document also ends picture-in-picture is left to the platform; the model keeps the PiP state.
- Component.FullscreenChangeOf: some browsers consume Escape while fullscreen, and then it never reaches the page. The model delivers it to the keyboard listener, whose Escape branch changes only heights, which are not modelled.
- The duration before `loadedmetadata` (NaN in the browser) is taken as a known non-negative number.
- Resolution switching: the quality list (app.js:880-882) has no handlers, so there is nothing to model beyond the slide-in of `updateSettingsUI`.

## Findings

| source | as written | input that shows it | evidently intended | confidence | as-written member | corrected member |
|---|---|---|---|---|---|---|
| app.js:460 | the teardown calls `addEventListener` for the fullscreen button's click | mount, unmount, mount: the fullscreen button has two click handlers, the one the teardown left registered and the new one, so each click asks the platform twice | `removeEventListener` | high (not executed) | Listeners.DisconnectAsWritten, Listeners.RemountAsWrittenDoublesHandlers | Listeners.Disconnect, Listeners.RemountRegistersOnce, Component.CorrectedStep |
| app.js:451-468 | the teardown never removes the keydown (376), `fullscreenchange` (435), `ended` (304), back, rate and settings listeners. The first two are anonymous and sit on `window`/`document` | one mount and unmount: Space still toggles playback. After a remount Space and the settings button each run two listeners that cancel out, so the menu never opens, and one platform fullscreen change flips the icons twice | remove every listener the mount registers (the comment at app.js:450 says "to prevent memory leaks") | high (not executed) | Listeners.TeardownAsWrittenLeaks, Component.DetachedSpaceStillToggles, Component.RemountedSpaceKeepsPlayback, Component.RemountedSettingsButtonStuck, Component.RemountedFullscreenChangeDesyncs | Listeners.DisconnectUndoesMount, Component.CorrectedDisconnectedCallback, Component.CorrectedDetachedIgnoresKeys, Component.RemountSingleHandlers |
| app.js:100-107 | within the first ten seconds the rewind writes 0, then writes `currentTime - 10` = −10 | `currentTime` = 5: the second write is −10 | seek to max(0, t − 10) in one write | medium (not executed); harmless against a clamping media element | SeekBar.RewindAsWritten, SeekBar.RewindAsWrittenSeeksNegative | SeekBar.Rewind, SeekBar.RewindAsWrittenMatchesClamped |
| app.js:314-317 | the listeners are registered by a zero-delay timeout that an unmount never cancels, and the teardown before it runs finds every `bound*` field undefined | mount and unmount in the same task, then mount again: the first setup registers its table on the detached component and the second adds another, so a click on play runs two listeners that cancel out, mute runs twice, rewind goes back 20 seconds, and the first table can never be removed | cancel the timeout on unmount and remove every listener of the last mount | high (not executed) | Lifecycle.Step, Lifecycle.EarlyUnmountRegistersTwice, Lifecycle.EarlyUnmountLeaksForever, Transport.PlaybackTwiceCancels, SeekBar.RewindTwiceAsWritten | Lifecycle.CorrectedStep, Lifecycle.CorrectedEarlyUnmountRegistersOnce, Lifecycle.CorrectedRunKeepsLastMount |

=== FILE: backend.dfy ===
/** The native media element the component drives (the `video` field of
    app.js). Only the parts of its behaviour the handlers depend on are
    modelled, as explicit assumptions about the backend:
    - assigning `currentTime` seeks, and a seek lands inside [0, duration];
    - `play()` on ended media first seeks back to the start;
    - `ended` holds when a seek lands on the end of a non-empty resource. */
module Backend {

  datatype Media = Media(
    paused: bool,
    ended: bool,
    currentTime: real,
    duration: real,
    volume: real,
    muted: bool,
    playbackRate: real)

  /** The ranges the media element itself guarantees. */
  predicate Valid(m: Media) {
    && 0.0 <= m.currentTime <= m.duration
    && 0.0 <= m.volume <= 1.0
  }

  /** JavaScript `Math.floor` on a finite number. */
  function Floor(x: real): (n: int)
    ensures n as real <= x < n as real + 1.0
  {
    x.Floor
  }

  /** JavaScript `Math.round` on a finite number: halves round towards +infinity. */
  function Round(x: real): (n: int)
    ensures x - 0.5 < n as real <= x + 0.5
  {
    (x + 0.5).Floor
  }

  lemma RoundOfWhole(n: int)
    ensures Round(n as real) == n && Floor(n as real) == n
  {
  }

  /** The position a seek to `t` lands on. */
  function SeekTarget(t: real, duration: real): (c: real)
    requires 0.0 <= duration
    ensures 0.0 <= c <= duration
    ensures 0.0 <= t <= duration ==> c == t
    ensures t < 0.0 ==> c == 0.0
    ensures duration < t ==> c == duration
  {
    if t < 0.0 then 0.0 else if duration < t then duration else t
  }

  /** `video.currentTime = t`. */
  function SetCurrentTime(m: Media, t: real): (r: Media)
    requires Valid(m)
    ensures Valid(r)
    ensures r.currentTime == SeekTarget(t, m.duration)
    ensures r == m.(currentTime := r.currentTime, ended := r.ended)
  {
    var c := SeekTarget(t, m.duration);
    m.(currentTime := c, ended := 0.0 < m.duration && c == m.duration)
  }

  /** `video.play()`. */
  function Play(m: Media): (r: Media)
    requires Valid(m)
    ensures Valid(r) && !r.paused
    ensures m.ended && 0.0 < m.duration ==> r.currentTime == 0.0 && !r.ended
    ensures !m.ended ==> r == m.(paused := false)
  {
    var restarted := if m.ended then SetCurrentTime(m, 0.0) else m;
    restarted.(paused := false)
  }

  /** `video.pause()`. */
  function Pause(m: Media): (r: Media)
    requires Valid(m)
    ensures Valid(r) && r.paused
    ensures r == m.(paused := true)
  {
    m.(paused := true)
  }
}

=== FILE: component.dfy ===
/** The component as a state machine. An input reaches the page as a DOM
    event on one element; the platform applies its own effect (a slider
    moves, playback advances, the fullscreen state changes) and then runs,
    one after the other, every listener registered on that element for that
    event type. Mounting and unmounting are the inputs `Connect` and
    `Disconnect`.

    `Step` is the program as written: `disconnectedCallback` is the
    teardown of app.js:451-468, so listeners survive an unmount and pile up
    over remounts. `CorrectedStep` differs only in using the complete
    teardown. */
module Component {
  import opened Wrappers
  import opened Backend
  import opened Player
  import Listeners
  import Transport
  import SeekBar
  import Settings
  import Screen

  datatype KeyCode = Space | KeyM | Escape | OtherKey

  /** The inputs. Parameters carry what the platform decides: whether it
      grants a fullscreen request, whether PiP is
      supported and granted, where the pointer is, which value a slider was
      released at, how far playback advanced. */
  datatype Event =
    | Click(target: Listeners.Source, granted: bool, pipSupported: bool)
    | KeyDown(code: KeyCode)
    | VolumeChange(level: real)
    | SeekInput(inputValue: int)
    | SeekHover(offsetX: real, width: real)
    | TimeUpdate(position: real)
    | MediaEnded
    | LoadedMetadata(duration: real)
    | PlatformFullscreenChange
    | Connect
    | Disconnect

  /** The element and event type an input is dispatched to. */
  function Target(e: Event): (t: (Listeners.Source, Listeners.EventName))
    requires !e.Connect? && !e.Disconnect?
    ensures e.Click? ==> t == (e.target, Listeners.Click)
    ensures e.KeyDown? ==> t == (Listeners.Window, Listeners.KeyDown)
    ensures e.PlatformFullscreenChange? ==> t == (Listeners.Document, Listeners.FullscreenChange)
    ensures t.1 == Listeners.FullscreenChange <==> e.PlatformFullscreenChange?
  {
    match e
    case Click(source, _, _) => (source, Listeners.Click)
    case KeyDown(_) => (Listeners.Window, Listeners.KeyDown)
    case VolumeChange(_) => (Listeners.VolumeInput, Listeners.Change)
    case SeekInput(_) => (Listeners.Seek, Listeners.Input)
    case SeekHover(_, _) => (Listeners.Seek, Listeners.MouseMove)
    case TimeUpdate(_) => (Listeners.Video, Listeners.TimeUpdate)
    case MediaEnded => (Listeners.Video, Listeners.Ended)
    case LoadedMetadata(_) => (Listeners.Video, Listeners.LoadedMetadata)
    case PlatformFullscreenChange => (Listeners.Document, Listeners.FullscreenChange)
  }

  /** The number of listeners registered for the input's element and type. */
  function Registrations(s: PlayerState, e: Event): nat
    requires !e.Connect? && !e.Disconnect?
  {
    Listeners.HandlerCount(s.subs, Target(e).0, Target(e).1)
  }

  /** What the platform guarantees of an input, whatever the state: a
      range slider reports a value inside its range, a pointer event lies
      inside the element it targets, a duration is not negative. */
  predicate Payload(e: Event) {
    match e
    case VolumeChange(v) => 0.0 <= v <= 1.0
    case SeekHover(x, w) => 0.0 < w && 0.0 <= x <= w
    case LoadedMetadata(d) => 0.0 <= d
    case _ => true
  }

  /** What the platform guarantees of an input in a state: playback
      advances inside the resource, and the controls in the component's
      shadow tree are only rendered, so only clicked, dragged or hovered,
      while the component is in a document. The window, the document and
      the media element deliver their events at any time. */
  predicate WellFormed(s: PlayerState, e: Event) {
    && Payload(e)
    && (e.TimeUpdate? ==> 0.0 <= e.position <= s.media.duration)
    && (e.Click? || e.VolumeChange? || e.SeekInput? || e.SeekHover? ==> s.connected)
  }

  /** What the handlers need of the state they run in. */
  predicate Ready(s: PlayerState) {
    && Backend.Valid(s.media)
    && 0.0 <= s.volumeInput <= 1.0
  }

  /** The widgets agree with the media element and with each other. */
  predicate Widgets(s: PlayerState) {
    && Backend.Valid(s.media)
    && s.transport.playHidden != s.transport.pauseHidden
    && Settings.Coherent(s.menu)
    && (s.seekMax.Some? ==> s.seekMax.value == s.progressMax && 0 <= s.progressMax)
  }

  /** The volume slider, the media volume and the volume icons agree. */
  predicate VolumeShown(s: PlayerState) {
    && !s.media.muted
    && s.media.volume == s.volumeInput
    && s.volumeIcons == Transport.VolumeIconsFor(s.volumeInput)
  }

  /** What app.js's own listener calls keep of the registrations, whatever
      the order of mounts and teardowns: no triple twice, every triple an
      entry of the table of the mount that made it, and the whole table of
      the current mount while mounted. */
  ghost predicate Registered(s: PlayerState) {
    && Listeners.NoDuplicates(s.subs)
    && Listeners.Conforms(s.subs)
    && (s.connected ==> forall x | Listeners.Routed(x, s.generation) :: x in s.subs)
  }

  /** The invariant of the component as written. */
  ghost predicate Sound(s: PlayerState) {
    Widgets(s) && VolumeShown(s) && Registered(s)
  }

  /** The registrations while mounted are exactly the listener table of the
      current mount, and there are none while unmounted. */
  ghost predicate SubscriptionsMatch(s: PlayerState) {
    && Listeners.NoDuplicates(s.subs)
    && (if s.connected then forall x :: x in s.subs <==> Listeners.Routed(x, s.generation)
        else s.subs == multiset{})
  }

  /** The invariant of the component with the complete teardown: also the
      fullscreen icons show the platform's state, and the registrations
      are exactly one listener table. */
  ghost predicate Valid(s: PlayerState) {
    Sound(s) && Screen.InSync(s) && SubscriptionsMatch(s)
  }

  lemma InitialValid(duration: real)
    requires 0.0 <= duration
    ensures Valid(Initial(duration)) && Sound(Initial(duration))
  {
  }

  /** `connectedCallback`: a new generation of closures is registered on
      top of whatever is still registered. */
  function ConnectedCallback(s: PlayerState): (r: PlayerState)
    ensures r.connected && r.generation == s.generation + 1
    ensures forall x :: x in r.subs <==> x in s.subs || Listeners.Routed(x, r.generation)
    ensures Listeners.NoDuplicates(s.subs) ==> Listeners.NoDuplicates(r.subs)
    ensures r == s.(subs := r.subs, generation := r.generation, connected := true)
  {
    var g := s.generation + 1;
    s.(subs := Listeners.Mount(s.subs, g), generation := g, connected := true)
  }

  /** `disconnectedCallback` as written (app.js:451-468). */
  function DisconnectedCallback(s: PlayerState): (r: PlayerState)
    ensures !r.connected
    ensures Listeners.NoDuplicates(s.subs) ==>
              forall x :: x in r.subs <==>
                || x == Listeners.Subscription(Listeners.FullScreenBtn, Listeners.Click,
                                               Listeners.Closure(Listeners.FullScreenHandler, s.generation))
                || (x in s.subs && x !in Listeners.TeardownCallsBefore(s.generation)
                                && x !in Listeners.TeardownCallsAfter(s.generation))
    ensures r == s.(subs := r.subs, connected := false)
  {
    s.(subs := Listeners.DisconnectAsWritten(s.subs, s.generation), connected := false)
  }

  /** `disconnectedCallback` with the complete teardown: every listener of
      the mount is removed, so a component that held exactly the table
      holds nothing. */
  function CorrectedDisconnectedCallback(s: PlayerState): (r: PlayerState)
    ensures !r.connected
    ensures Listeners.NoDuplicates(s.subs) ==>
              forall x :: x in r.subs <==> x in s.subs && !Listeners.Routed(x, s.generation)
    ensures s.connected && SubscriptionsMatch(s) ==> r.subs == multiset{}
    ensures r == s.(subs := r.subs, connected := false)
  {
    var subs := Listeners.Disconnect(s.subs, s.generation);
    assert s.connected && SubscriptionsMatch(s) ==> forall x :: subs[x] == 0;
    s.(subs := subs, connected := false)
  }

  /** The `ended` listener (app.js:304-307) after the media element reaches the end. */
  function EndedHandler(s: PlayerState): (r: PlayerState)
    ensures r.seekValue == 0 && r.progressValue == 0
    ensures !r.transport.playHidden <==> s.media.paused || s.media.ended
    ensures r == s.(transport := r.transport, seekValue := 0, progressValue := 0)
  {
    SeekBar.ResetProgressBar(Transport.UpdatePauseState(s))
  }

  /** The keyboard listener (app.js:376-393). Escape only asks the platform
      to leave fullscreen, which the platform does on Escape anyway
      (`PlatformAnswer`). */
  function OnKeyDown(s: PlayerState, code: KeyCode): (r: PlayerState)
    requires Backend.Valid(s.media)
    ensures code.Space? ==> r.media.paused == !(s.media.paused || s.media.ended)
    ensures code.KeyM? ==> (r.media.volume == 1.0 <==> s.media.volume == 0.0)
    ensures code.KeyM? ==> (r.media.volume == 0.0 <==> s.media.volume != 0.0)
    ensures code.Escape? || code.OtherKey? ==> r == s
  {
    match code
    case Space => Transport.PlaybackHandler(s)
    case KeyM => Transport.ToggleMute(s)
    case Escape => s
    case OtherKey => s
  }

  /** `parseFloat` of the clicked button's `data-rate` (app.js:866-871);
      an element without the attribute parses to NaN. */
  function ButtonRate(source: Listeners.Source): (rate: Option<real>)
    ensures rate.Some? <==> source.RateBtn? && source.index < Listeners.RateButtons
    ensures rate.Some? ==> 0.5 <= rate.value <= 2.0
    ensures source == Listeners.RateBtn(3) ==> rate == Some(1.0)
  {
    match source
    case RateBtn(i) =>
      if i < Listeners.RateButtons then Some([2.0, 1.75, 1.5, 1.0, 0.75, 0.5][i]) else None
    case _ => None
  }

  /** One run of the listener `h` on the input `e`. The fullscreen and PiP
      listeners only ask the platform for something, so they leave the
      state as it is. */
  function Answer(h: Listeners.Handler, s: PlayerState, e: Event): (r: PlayerState)
    requires Ready(s) && Payload(e)
    ensures Ready(r)
    ensures r.subs == s.subs && r.connected == s.connected && r.generation == s.generation
    ensures r.platform == s.platform
    ensures !(h.Closure? && h.kind == Listeners.FullscreenChangeClosure) ==>
              r.fullscreenIcons == s.fullscreenIcons && r.controlsFullScreen == s.controlsFullScreen
    ensures h.Closure? && h.kind == Listeners.FullscreenChangeClosure ==>
              r == s.(fullscreenIcons := r.fullscreenIcons, controlsFullScreen := r.controlsFullScreen)
    ensures Widgets(s) ==> Widgets(r)
    ensures VolumeShown(s) ==> VolumeShown(r)
    ensures h.Closure? && h.kind == Listeners.VolumeHandler ==> VolumeShown(r)
  {
    match h
    case InitializeVideo => SeekBar.InitializeVideo(s)
    case Closure(kind, _) =>
      if kind.EndedClosure? || kind.PlaybackHandler? || kind.VolumeHandler? || kind.MuteHandler? || kind.KeyDownClosure? then
        AnswerTransport(kind, s, e)
      else if kind.SettingsUIHandler? || kind.BackHandler? || kind.PlaybackRateHandler? || kind.ToggleSettingsHandler? then
        AnswerMenu(kind, s, e)
      else
        AnswerTimeline(kind, s, e)
  }

  /** The play/pause, volume, `ended` and keyboard listeners. */
  function AnswerTransport(kind: Listeners.ClosureKind, s: PlayerState, e: Event): (r: PlayerState)
    requires Ready(s)
    requires kind.EndedClosure? || kind.PlaybackHandler? || kind.VolumeHandler? || kind.MuteHandler? || kind.KeyDownClosure?
    ensures Ready(r)
    ensures r == s.(media := r.media, transport := r.transport, volumeInput := r.volumeInput,
                    volumeIcons := r.volumeIcons, seekValue := r.seekValue, progressValue := r.progressValue)
    ensures Widgets(s) ==> Widgets(r)
    ensures VolumeShown(s) ==> VolumeShown(r)
    ensures kind.VolumeHandler? ==> VolumeShown(r)
  {
    match kind
    case EndedClosure => EndedHandler(s)
    case PlaybackHandler => Transport.PlaybackHandler(s)
    case VolumeHandler => Transport.VolumeHandler(s)
    case MuteHandler => Transport.ToggleMute(s)
    case KeyDownClosure => if e.KeyDown? then OnKeyDown(s, e.code) else s
  }

  /** The settings-menu and playback-rate listeners. */
  function AnswerMenu(kind: Listeners.ClosureKind, s: PlayerState, e: Event): (r: PlayerState)
    requires kind.SettingsUIHandler? || kind.BackHandler? || kind.PlaybackRateHandler? || kind.ToggleSettingsHandler?
    ensures r == s.(menu := r.menu, media := r.media, rateLabel := r.rateLabel)
    ensures r.media == s.media.(playbackRate := r.media.playbackRate)
    ensures Settings.Coherent(s.menu) ==> Settings.Coherent(r.menu)
  {
    match kind
    case SettingsUIHandler =>
      if e.Click? && e.target.SettingsPlaybackBtn? then
        s.(menu := Settings.UpdateSettingsUI(s.menu, Settings.PlaybackRateButton))
      else if e.Click? && e.target.SettingsQualityBtn? then
        s.(menu := Settings.UpdateSettingsUI(s.menu, Settings.QualityButton))
      else s
    case BackHandler => s.(menu := Settings.HandleBackButtonClick(s.menu))
    case PlaybackRateHandler => Settings.UpdatePlaybackRate(s, if e.Click? then ButtonRate(e.target) else None)
    case ToggleSettingsHandler => s.(menu := Settings.ToggleShowSettings(s.menu))
  }

  /** The time-update, seek, rewind, fullscreen and PiP listeners. */
  function AnswerTimeline(kind: Listeners.ClosureKind, s: PlayerState, e: Event): (r: PlayerState)
    requires Ready(s) && Payload(e)
    requires !(kind.EndedClosure? || kind.PlaybackHandler? || kind.VolumeHandler? || kind.MuteHandler? || kind.KeyDownClosure?)
    requires !(kind.SettingsUIHandler? || kind.BackHandler? || kind.PlaybackRateHandler? || kind.ToggleSettingsHandler?)
    ensures Backend.Valid(r.media)
    ensures r == s.(media := r.media, timeElapsed := r.timeElapsed, seekValue := r.seekValue,
                    progressValue := r.progressValue, seekHint := r.seekHint, tooltip := r.tooltip,
                    fullscreenIcons := r.fullscreenIcons, controlsFullScreen := r.controlsFullScreen)
    ensures !kind.FullscreenChangeClosure? ==>
              r.fullscreenIcons == s.fullscreenIcons && r.controlsFullScreen == s.controlsFullScreen
    ensures r.media.(currentTime := s.media.currentTime, ended := s.media.ended) == s.media
  {
    match kind
    case FullscreenChangeClosure => Screen.OnFullscreenChange(s)
    case TimeUpdateHandler => SeekBar.TimeUpdateHandler(s)
    case FullScreenHandler => s
    case SkipAheadHandler => if e.SeekInput? then SeekBar.SkipAhead(s, e.inputValue) else s
    case SeekTooltipHandler =>
      if e.SeekHover? then SeekBar.UpdateSeekTooltip(s, e.offsetX, e.width) else s
    case RewindHandler => s.(media := SeekBar.RewindAsWritten(s.media))
    case PiPHandler => s
  }

  /** `n` registered copies of the listener `h`, run one after the other. */
  function AnswerTimes(h: Listeners.Handler, n: nat, s: PlayerState, e: Event): (r: PlayerState)
    requires Ready(s) && Payload(e)
    ensures Ready(r)
    ensures n == 0 ==> r == s
    ensures n == 1 ==> r == Answer(h, s, e)
    ensures r.subs == s.subs && r.connected == s.connected && r.generation == s.generation
    ensures r.platform == s.platform
    ensures !(h.Closure? && h.kind == Listeners.FullscreenChangeClosure) ==>
              r.fullscreenIcons == s.fullscreenIcons && r.controlsFullScreen == s.controlsFullScreen
    ensures h.Closure? && h.kind == Listeners.FullscreenChangeClosure ==>
              r == s.(fullscreenIcons := r.fullscreenIcons, controlsFullScreen := r.controlsFullScreen)
    ensures Widgets(s) ==> Widgets(r)
    ensures VolumeShown(s) ==> VolumeShown(r)
    ensures 0 < n && h.Closure? && h.kind == Listeners.VolumeHandler ==> VolumeShown(r)
    decreases n
  {
    if n == 0 then s else AnswerTimes(h, n - 1, Answer(h, s, e), e)
  }

  /** Two registered copies run the listener twice. */
  lemma AnswerTwice(h: Listeners.Handler, s: PlayerState, e: Event)
    requires Ready(s) && Payload(e)
    ensures AnswerTimes(h, 2, s, e) == Answer(h, Answer(h, s, e), e)
  {
    assert AnswerTimes(h, 2, s, e) == AnswerTimes(h, 1, Answer(h, s, e), e);
  }

  /** The platform's own effect of an input, before any listener runs. */
  function DefaultAction(s: PlayerState, e: Event): (r: PlayerState)
    requires Ready(s) && WellFormed(s, e) && !e.Connect? && !e.Disconnect?
    ensures Ready(r)
    ensures r.subs == s.subs && r.connected == s.connected && r.generation == s.generation
    ensures r.fullscreenIcons == s.fullscreenIcons && r.controlsFullScreen == s.controlsFullScreen
    ensures e.PlatformFullscreenChange? ==> r.platform == Screen.ChangeByPlatform(s.platform)
    ensures !e.PlatformFullscreenChange? ==> r.platform == s.platform
    ensures Widgets(s) ==> Widgets(r)
    ensures !e.VolumeChange? && VolumeShown(s) ==> VolumeShown(r)
  {
    match e
    case VolumeChange(v) => s.(volumeInput := v)
    case SeekInput(v) => s.(seekValue := v)
    case TimeUpdate(t) => s.(media := s.media.(currentTime := t))
    case MediaEnded => s.(media := s.media.(currentTime := s.media.duration, ended := true, paused := true))
    case LoadedMetadata(d) =>
      s.(media := s.media.(duration := d, currentTime := SeekTarget(s.media.currentTime, d)))
    case PlatformFullscreenChange => s.(platform := Screen.ChangeByPlatform(s.platform))
    case _ => s
  }

  /** The DOM's dispatch of one input: the platform's own effect, then every
      listener registered for the input's element and type, in turn.
      Conforming registrations run the code of the current table on every
      pair (`Listeners.ConformingHandlersRunTableCode`), so the dispatch
      runs that code once per registered triple. */
  function Dispatch(s: PlayerState, e: Event): (r: PlayerState)
    requires Ready(s) && WellFormed(s, e) && !e.Connect? && !e.Disconnect?
    ensures Ready(r)
    ensures r.subs == s.subs && r.connected == s.connected && r.generation == s.generation
    ensures Registrations(s, e) == 0 ==> r == DefaultAction(s, e)
    ensures e.PlatformFullscreenChange? ==> r.platform == Screen.ChangeByPlatform(s.platform)
    ensures !e.PlatformFullscreenChange? ==> r.platform == s.platform
    ensures !e.PlatformFullscreenChange? ==>
              r.fullscreenIcons == s.fullscreenIcons && r.controlsFullScreen == s.controlsFullScreen
    ensures e.PlatformFullscreenChange? && Screen.InSync(s) && Registrations(s, e) == 1 ==> Screen.InSync(r)
    ensures Widgets(s) ==> Widgets(r)
    ensures !e.VolumeChange? && VolumeShown(s) ==> VolumeShown(r)
    ensures e.VolumeChange? && 0 < Registrations(s, e) ==> VolumeShown(r)
  {
    var before := DefaultAction(s, e);
    Listeners.OnlyFullscreenChangeRoutesThere(Target(e).0, Target(e).1, s.generation);
    match Listeners.RoutedHandler(Target(e).0, Target(e).1, s.generation)
    case None => before
    case Some(h) => AnswerTimes(h, Registrations(s, e), before, e)
  }

  /** The platform fires `fullscreenchange` at the document after changing
      its fullscreen state: every listener registered there runs, each the
      table's `fullscreenchange` code. */
  function NotifyFullscreenChange(s: PlayerState): (r: PlayerState)
    requires Ready(s)
    ensures Ready(r)
    ensures r == s.(fullscreenIcons := r.fullscreenIcons, controlsFullScreen := r.controlsFullScreen)
    ensures Listeners.HandlerCount(s.subs, Listeners.Document, Listeners.FullscreenChange) == 0 ==> r == s
    ensures Listeners.HandlerCount(s.subs, Listeners.Document, Listeners.FullscreenChange) == 1 ==>
              r == Screen.OnFullscreenChange(s)
  {
    AnswerTimes(Listeners.Closure(Listeners.FullscreenChangeClosure, s.generation),
                Listeners.HandlerCount(s.subs, Listeners.Document, Listeners.FullscreenChange),
                s, PlatformFullscreenChange)
  }

  /** The platform carries out a fullscreen request or exit and then fires
      `fullscreenchange`. */
  function GrantFullscreen(s: PlayerState, request: Screen.FullscreenRequest): (r: PlayerState)
    requires Ready(s)
    ensures Ready(r)
    ensures r.platform == Screen.Grant(s.platform, request)
    ensures r == s.(platform := r.platform, fullscreenIcons := r.fullscreenIcons,
                    controlsFullScreen := r.controlsFullScreen)
    ensures Listeners.HandlerCount(s.subs, Listeners.Document, Listeners.FullscreenChange) == 0 ==>
              r.fullscreenIcons == s.fullscreenIcons && r.controlsFullScreen == s.controlsFullScreen
    ensures (&& Screen.InSync(s)
             && Screen.Grant(s.platform, request).fullscreen != s.platform.fullscreen
             && Listeners.HandlerCount(s.subs, Listeners.Document, Listeners.FullscreenChange) == 1)
            ==> Screen.InSync(r)
  {
    NotifyFullscreenChange(s.(platform := Screen.Grant(s.platform, request)))
  }

  /** The fullscreen change an input brings about once its listeners have
      run: the fullscreen button's request when some listener asked and the
      platform grants it, and on Escape while something is fullscreen the
      browser's own exit, which happens whatever the page listens to (the
      keyboard listener's request adds nothing). `asked` is the state the
      listeners left. */
  function FullscreenChangeOf(s: PlayerState, e: Event, asked: PlayerState): (r: Option<Screen.FullscreenRequest>)
    requires !e.Connect? && !e.Disconnect?
    ensures r.Some? ==> e.Click? || e.KeyDown?
    ensures e.KeyDown? && e.code.Escape? ==> (r.Some? <==> asked.platform.fullscreen)
    ensures e.KeyDown? && e.code.Escape? && r.Some? ==> r.value == Screen.ExitFullscreen
    ensures e.Click? ==> (r.Some? <==> 0 < Registrations(s, e) && e.granted && e.target == Listeners.FullScreenBtn)
    ensures e.Click? && r.Some? ==> r.value == Screen.ToggleFullScreen(asked.platform)
    ensures r.Some? ==> Screen.Grant(asked.platform, r.value).fullscreen != asked.platform.fullscreen
  {
    match e
    case Click(target, granted, _) =>
      if Registrations(s, e) > 0 && granted && target == Listeners.FullScreenBtn then
        Some(Screen.ToggleFullScreen(asked.platform))
      else None
    case KeyDown(Escape) => Screen.EscapeRequest(asked.platform)
    case _ => None
  }

  /** What the platform does once the listeners of `e` have asked it: it
      carries out a fullscreen change once however many listeners asked
      (`FullscreenChangeOf`), and picture-in-picture when the PiP button's
      listener asked. `asked` is the state the listeners left. */
  function PlatformAnswer(s: PlayerState, e: Event, asked: PlayerState): (r: PlayerState)
    requires !e.Connect? && !e.Disconnect?
    requires Ready(asked)
    ensures Ready(r)
    ensures r.subs == asked.subs && r.connected == asked.connected && r.generation == asked.generation
    ensures !(e.Click? || e.KeyDown?) ==> r == asked
    ensures Registrations(s, e) == 0 && !(e.KeyDown? && e.code.Escape? && asked.platform.fullscreen) ==> r == asked
    ensures FullscreenChangeOf(s, e, asked).Some? ==>
              r.platform == Screen.Grant(asked.platform, FullscreenChangeOf(s, e, asked).value)
    ensures (&& Screen.InSync(asked)
             && Listeners.HandlerCount(asked.subs, Listeners.Document, Listeners.FullscreenChange) == 1)
            ==> Screen.InSync(r)
    ensures Widgets(asked) ==> Widgets(r)
    ensures VolumeShown(asked) ==> VolumeShown(r)
  {
    match FullscreenChangeOf(s, e, asked)
    case Some(request) => GrantFullscreen(asked, request)
    case None =>
      if e.Click? && Registrations(s, e) > 0 && e.target == Listeners.PipBtn then
        Screen.PiPHandler(asked, e.pipSupported, e.granted)
      else asked
  }

  /** What the platform does once the component has left the document and
      `disconnectedCallback` has run. The media element, removed with it,
      runs its internal pause steps (the HTML standard, "when a media
      element is removed from a Document"); the `timeupdate` and `pause`
      events this fires reach no listener, since both teardowns remove the
      `timeupdate` one and app.js registers none for `pause`. A container
      that is the fullscreen element is taken out of fullscreen and
      `fullscreenchange` is fired at the document (the removing steps of
      the Fullscreen standard). */
  function RemovingSteps(s: PlayerState): (r: PlayerState)
    requires Ready(s)
    ensures Ready(r)
    ensures r.subs == s.subs && r.connected == s.connected && r.generation == s.generation
    ensures r.media == Backend.Pause(s.media)
    ensures !r.platform.containerFullscreen
    ensures s.platform.containerFullscreen ==> !r.platform.fullscreen
    ensures !s.platform.containerFullscreen ==> r == s.(media := r.media)
    ensures r == s.(media := r.media, platform := r.platform, fullscreenIcons := r.fullscreenIcons,
                    controlsFullScreen := r.controlsFullScreen)
    ensures Listeners.HandlerCount(s.subs, Listeners.Document, Listeners.FullscreenChange) == 0 ==>
              r.fullscreenIcons == s.fullscreenIcons && r.controlsFullScreen == s.controlsFullScreen
    ensures (&& Screen.InSync(s) && (s.platform.containerFullscreen ==> s.platform.fullscreen)
             && Listeners.HandlerCount(s.subs, Listeners.Document, Listeners.FullscreenChange) == 1)
            ==> Screen.InSync(r)
    ensures Widgets(s) ==> Widgets(r)
    ensures VolumeShown(s) ==> VolumeShown(r)
  {
    var paused := s.(media := Backend.Pause(s.media));
    if s.platform.containerFullscreen then GrantFullscreen(paused, Screen.ExitFullscreen) else paused
  }

  /** Unmounting the component as written: `disconnectedCallback`, then
      the platform's removing steps. */
  function Unmount(s: PlayerState): (r: PlayerState)
    requires Ready(s)
    ensures Ready(r)
    ensures !r.connected && (!s.connected ==> r == s)
    ensures s.connected ==> r.subs == Listeners.DisconnectAsWritten(s.subs, s.generation)
    ensures s.connected ==> r.media == Backend.Pause(s.media)
    ensures s.connected && !s.platform.containerFullscreen ==>
              r == s.(subs := r.subs, connected := false, media := r.media)
    ensures s.connected && s.platform.containerFullscreen ==> !r.platform.fullscreen
    ensures r.transport == s.transport
  {
    if s.connected then RemovingSteps(DisconnectedCallback(s)) else s
  }

  /** An input other than a mount or an unmount: the DOM's dispatch, then
      whatever the listeners asked of the platform. */
  function Input(s: PlayerState, e: Event): (r: PlayerState)
    requires Ready(s) && WellFormed(s, e) && !e.Connect? && !e.Disconnect?
    ensures Ready(r)
    ensures r.subs == s.subs && r.connected == s.connected && r.generation == s.generation
    ensures e.KeyDown? && e.code.Escape? ==> !r.platform.fullscreen
    ensures Registrations(s, e) == 0 && !(e.KeyDown? && e.code.Escape? && s.platform.fullscreen) ==>
              r == DefaultAction(s, e)
  {
    PlatformAnswer(s, e, Dispatch(s, e))
  }

  /** One input to the component as written. The unmount is `Unmount`,
      any other input `Input`; Escape always ends fullscreen. */
  function Step(s: PlayerState, e: Event): (r: PlayerState)
    requires Ready(s) && WellFormed(s, e)
    ensures Ready(r)
    ensures e.Connect? ==> r.connected && (s.connected ==> r == s)
    ensures e.Connect? && !s.connected ==>
              && r.generation == s.generation + 1
              && r.subs == Listeners.Mount(s.subs, r.generation)
              && r == s.(subs := r.subs, generation := r.generation, connected := true)
    ensures e.Disconnect? ==> !r.connected && (!s.connected ==> r == s)
    ensures !e.Connect? && !e.Disconnect? ==>
              r.subs == s.subs && r.connected == s.connected && r.generation == s.generation
  {
    match e
    case Connect => if s.connected then s else ConnectedCallback(s)
    case Disconnect => Unmount(s)
    case _ => Input(s, e)
  }

  /** One input to the component with the complete teardown. */
  function CorrectedStep(s: PlayerState, e: Event): (r: PlayerState)
    requires Ready(s) && WellFormed(s, e)
    ensures Ready(r)
    ensures e.Disconnect? && s.connected && SubscriptionsMatch(s) ==> !r.connected && r.subs == multiset{}
    ensures e.Disconnect? && s.connected ==> r.media == Backend.Pause(s.media)
    ensures !e.Disconnect? ==> r == Step(s, e)
  {
    if e.Disconnect? && s.connected then RemovingSteps(CorrectedDisconnectedCallback(s)) else Step(s, e)
  }

  /** Every input to the component as written keeps its invariant. */
  lemma StepPreservesSound(s: PlayerState, e: Event)
    requires Sound(s) && WellFormed(s, e)
    ensures Sound(Step(s, e))
  {
    if e.Connect? {
      ConnectPreservesSound(s);
    } else if e.Disconnect? {
      DisconnectPreservesSound(s);
    } else {
      DispatchPreservesSound(s, e);
    }
  }

  lemma ConnectPreservesSound(s: PlayerState)
    requires Sound(s)
    ensures Sound(Step(s, Connect))
  {
    if !s.connected {
      var r := ConnectedCallback(s);
      Listeners.MountConforms(s.subs, r.generation);
      assert Listeners.Conforms(r.subs);
    }
  }

  lemma DisconnectPreservesSound(s: PlayerState)
    requires Sound(s)
    ensures Sound(Step(s, Disconnect))
  {
    if s.connected {
      Listeners.DisconnectAsWrittenConforms(s.subs, s.generation);
    }
  }

  lemma DispatchPreservesSound(s: PlayerState, e: Event)
    requires Sound(s) && WellFormed(s, e) && !e.Connect? && !e.Disconnect?
    ensures Sound(Step(s, e))
  {
    var answered := Dispatch(s, e);
    if e.VolumeChange? {
      var slider := Listeners.Subscription(Listeners.VolumeInput, Listeners.Change,
                                           Listeners.Closure(Listeners.VolumeHandler, s.generation));
      assert Listeners.Routed(slider, s.generation);
      Listeners.CountOfRegistered(s.subs, slider);
    }
    assert Widgets(answered) && VolumeShown(answered);
  }

  /** An input the complete teardown lets through keeps the full invariant
      provided every fullscreen change the player did not ask for finds it
      mounted: a change the platform makes on its own, Escape while
      something is fullscreen, and not an unmount while the container is
      fullscreen, whose exit comes after the listener is gone. */
  predicate CorrectedWellFormed(s: PlayerState, e: Event) {
    && WellFormed(s, e)
    && (e.PlatformFullscreenChange? || (e.KeyDown? && e.code.Escape? && s.platform.fullscreen) ==> s.connected)
    && !(e.Disconnect? && s.connected && s.platform.containerFullscreen)
  }

  /** Every input to the component with the complete teardown keeps its
      invariant: one listener answers each input, so the fullscreen icons
      follow every platform change. */
  lemma CorrectedStepPreservesValid(s: PlayerState, e: Event)
    requires Valid(s) && CorrectedWellFormed(s, e)
    ensures Valid(CorrectedStep(s, e))
  {
    if e.Connect? {
      CorrectedConnectPreservesValid(s);
    } else if e.Disconnect? {
      CorrectedDisconnectPreservesValid(s);
    } else {
      StepPreservesSound(s, e);
      CorrectedDispatchKeepsSync(s, e);
    }
  }

  lemma CorrectedConnectPreservesValid(s: PlayerState)
    requires Valid(s)
    ensures Valid(CorrectedStep(s, Connect))
  {
    ConnectPreservesSound(s);
  }

  lemma CorrectedDisconnectPreservesValid(s: PlayerState)
    requires Valid(s) && !(s.connected && s.platform.containerFullscreen)
    ensures Valid(CorrectedStep(s, Disconnect))
  {
    if s.connected {
      var d := CorrectedDisconnectedCallback(s);
      assert d.subs == multiset{};
      assert CorrectedStep(s, Disconnect) == d.(media := Backend.Pause(s.media));
    }
  }

  lemma CorrectedDispatchKeepsSync(s: PlayerState, e: Event)
    requires Valid(s) && CorrectedWellFormed(s, e) && !e.Connect? && !e.Disconnect?
    ensures Screen.InSync(Step(s, e))
  {
    if s.connected {
      Listeners.CountOfTable(s.subs, s.generation, Listeners.Document, Listeners.FullscreenChange);
      Listeners.CountOfTable(s.subs, s.generation, Target(e).0, Target(e).1);
      assert Screen.InSync(Dispatch(s, e));
    } else {
      assert Registrations(s, e) == 0;
      assert !(e.KeyDown? && e.code.Escape? && s.platform.fullscreen);
    }
  }

  /** A platform fullscreen change while the component with the complete
      teardown is detached has no listener to answer it, so the icons no
      longer show the platform's state once it is mounted again. */
  lemma UnmountedFullscreenChangeDesyncs(s: PlayerState)
    requires Valid(s) && !s.connected
    ensures var r := CorrectedStep(CorrectedStep(s, PlatformFullscreenChange), Connect);
            r.connected && !Screen.InSync(r)
  {
    assert Registrations(s, PlatformFullscreenChange) == 0;
  }

  /** A sequence of inputs to the component as written, each well formed
      in the state it meets. */
  ghost predicate Admissible(s: PlayerState, events: seq<Event>)
    requires Sound(s)
    decreases |events|
  {
    || events == []
    || (&& WellFormed(s, events[0])
        && (StepPreservesSound(s, events[0]);
            Admissible(Step(s, events[0]), events[1..])))
  }

  function Run(s: PlayerState, events: seq<Event>): PlayerState
    requires Sound(s) && Admissible(s, events)
    decreases |events|
  {
    if events == [] then s
    else
      StepPreservesSound(s, events[0]);
      Run(Step(s, events[0]), events[1..])
  }

  /** From first render, any admissible sequence of inputs to the component
      as written ends with exactly one of play/pause shown, the volume icon
      showing the volume, the settings lists coherent, and every current
      listener registered; stale ones may be registered too. */
  lemma {:induction false} RunPreservesSound(s: PlayerState, events: seq<Event>)
    requires Sound(s) && Admissible(s, events)
    ensures Sound(Run(s, events))
    decreases |events|
  {
    if events != [] {
      StepPreservesSound(s, events[0]);
      RunPreservesSound(Step(s, events[0]), events[1..]);
    }
  }

  ghost predicate CorrectedAdmissible(s: PlayerState, events: seq<Event>)
    requires Valid(s)
    decreases |events|
  {
    || events == []
    || (&& CorrectedWellFormed(s, events[0])
        && (CorrectedStepPreservesValid(s, events[0]);
            CorrectedAdmissible(CorrectedStep(s, events[0]), events[1..])))
  }

  function CorrectedRun(s: PlayerState, events: seq<Event>): PlayerState
    requires Valid(s) && CorrectedAdmissible(s, events)
    decreases |events|
  {
    if events == [] then s
    else
      CorrectedStepPreservesValid(s, events[0]);
      CorrectedRun(CorrectedStep(s, events[0]), events[1..])
  }

  /** With the complete teardown, any admissible sequence of inputs keeps
      the full invariant: also the fullscreen icons in step with the
      platform and the registrations exactly those of the current mount. */
  lemma {:induction false} CorrectedRunPreservesValid(s: PlayerState, events: seq<Event>)
    requires Valid(s) && CorrectedAdmissible(s, events)
    ensures Valid(CorrectedRun(s, events))
    decreases |events|
  {
    if events != [] {
      CorrectedStepPreservesValid(s, events[0]);
      CorrectedRunPreservesValid(CorrectedStep(s, events[0]), events[1..]);
    }
  }

  /** With the complete teardown, a mounted component answers Space once:
      playback toggles. */
  lemma CorrectedSpaceToggles(s: PlayerState)
    requires Valid(s) && s.connected
    ensures CorrectedStep(s, KeyDown(Space)).media.paused == !(s.media.paused || s.media.ended)
  {
    Listeners.CountOfTable(s.subs, s.generation, Listeners.Window, Listeners.KeyDown);
    OneKeyboardListenerToggles(s);
  }

  /** With the complete teardown, a detached component ignores the
      keyboard, apart from the browser's own exit on Escape. */
  lemma CorrectedDetachedIgnoresKeys(s: PlayerState, code: KeyCode)
    requires Valid(s) && !s.connected && !(code.Escape? && s.platform.fullscreen)
    ensures CorrectedStep(s, KeyDown(code)) == s
  {
    assert Registrations(s, KeyDown(code)) == 0;
  }

  /** Escape while something is fullscreen and the component with the
      complete teardown is detached: the browser leaves fullscreen, no
      listener answers, and the icons stop showing the platform's state. */
  lemma CorrectedDetachedEscapeDesyncs(s: PlayerState)
    requires Valid(s) && !s.connected && s.platform.fullscreen
    ensures !Screen.InSync(CorrectedStep(s, KeyDown(Escape)))
  {
    assert Registrations(s, KeyDown(Escape)) == 0;
    assert Listeners.HandlerCount(s.subs, Listeners.Document, Listeners.FullscreenChange) == 0;
  }

  /** Unmounting the component with the complete teardown while its
      container is fullscreen: the platform exits fullscreen after every
      listener is gone, so once mounted again the icons still show
      fullscreen. */
  lemma CorrectedUnmountInFullscreenDesyncs(s: PlayerState)
    requires Valid(s) && s.connected && s.platform.fullscreen && s.platform.containerFullscreen
    ensures var r := CorrectedStep(CorrectedStep(s, Disconnect), Connect);
            r.connected && !Screen.InSync(r)
  {
    var d := CorrectedDisconnectedCallback(s);
    assert d.subs == multiset{};
    assert Listeners.HandlerCount(d.subs, Listeners.Document, Listeners.FullscreenChange) == 0;
  }

  /** Mount, unmount and mount again with the complete teardown: each
      (source, event) pair answers with exactly one handler, from the
      latest mount. */
  lemma RemountSingleHandlers(s: PlayerState)
    requires s.connected && SubscriptionsMatch(s)
    ensures var r := ConnectedCallback(CorrectedDisconnectedCallback(s));
            && r.connected && r.generation == s.generation + 1
            && Listeners.OneHandlerPerPair(r.subs)
            && forall x :: x in r.subs <==> Listeners.Routed(x, r.generation)
  {
    var d := CorrectedDisconnectedCallback(s);
    assert !d.connected && d.subs == multiset{};
    MountAnswersOnce(d);
  }

  /** A mount into a component holding no registrations answers each
      (source, event) pair once. */
  lemma MountAnswersOnce(d: PlayerState)
    requires !d.connected && d.subs == multiset{}
    ensures var r := ConnectedCallback(d);
            && r.connected && r.generation == d.generation + 1
            && Listeners.OneHandlerPerPair(r.subs)
            && forall x :: x in r.subs <==> Listeners.Routed(x, r.generation)
  {
    var r := ConnectedCallback(d);
    Listeners.TableHasOneHandlerPerPair(r.subs, r.generation);
  }

  /** Unmounting while playing pauses the media, and no listener updates
      the play/pause icons: once mounted again they still show playback
      running, and the next click on them plays without changing them. */
  lemma RemountAfterPlayingShowsPlaying(s: PlayerState)
    requires Ready(s) && s.connected && !s.media.paused && !s.media.ended
    requires s.transport == Transport.PauseStateIcons(s.media)
    ensures var r := ConnectedCallback(Unmount(s));
            r.connected && r.media.paused && r.transport != Transport.PauseStateIcons(r.media)
  {
  }

  /** Under the teardown as written the `fullscreenchange` listener
      survives, so unmounting a once-mounted component while its container
      is fullscreen still turns the icons back: the exit the complete
      teardown leaves unanswered is answered by the leak. */
  lemma FirstUnmountInFullscreenAnswered(s: PlayerState)
    requires Ready(s) && Screen.InSync(s) && s.connected
    requires s.platform.fullscreen && s.platform.containerFullscreen
    requires s.subs == Listeners.Mount(multiset{}, s.generation)
    ensures Screen.InSync(Unmount(s))
  {
    var d := DisconnectedCallback(s);
    Listeners.TeardownAsWrittenMembers(s.generation);
    Listeners.LeftCounts(d.subs, s.generation);
  }

  /** A freshly constructed component that is mounted, unmounted with the
      teardown as written and mounted again holds the leftovers of the
      first mount and the table of the second. `Step` hands `Connect` and
      `Disconnect` to these callbacks. */
  lemma RemountAsWrittenRegistrations(s: PlayerState)
    requires s.subs == multiset{}
    ensures var g := s.generation + 1;
            var r := ConnectedCallback(DisconnectedCallback(ConnectedCallback(s)));
            && r.connected && r.generation == g + 1
            && forall x :: x in r.subs <==> Listeners.LeftByTeardownAsWritten(x, g) || Listeners.Routed(x, g + 1)
  {
    var g := s.generation + 1;
    var mounted := ConnectedCallback(s);
    assert mounted.subs == Listeners.Mount(multiset{}, g);
    var detached := DisconnectedCallback(mounted);
    assert detached.subs == Listeners.DisconnectAsWritten(Listeners.Mount(multiset{}, g), g);
    Listeners.RemountAsWrittenMembers(g);
  }

  /** An input that asks the platform for nothing runs the table's code
      once per registered listener, after the platform's own effect. */
  lemma StepRunsListeners(s: PlayerState, e: Event)
    requires Ready(s) && WellFormed(s, e) && !e.Connect? && !e.Disconnect?
    requires Listeners.RoutedHandler(Target(e).0, Target(e).1, s.generation).Some?
    requires !(e.Click? && (e.target == Listeners.FullScreenBtn || e.target == Listeners.PipBtn))
    requires !(e.KeyDown? && e.code.Escape?)
    ensures Step(s, e) == AnswerTimes(Listeners.RoutedHandler(Target(e).0, Target(e).1, s.generation).value,
                                      Registrations(s, e), DefaultAction(s, e), e)
  {
  }

  /** One keyboard listener: Space toggles playback. */
  lemma OneKeyboardListenerToggles(s: PlayerState)
    requires Ready(s) && Registrations(s, KeyDown(Space)) == 1
    ensures Step(s, KeyDown(Space)).media.paused == !(s.media.paused || s.media.ended)
  {
    StepRunsListeners(s, KeyDown(Space));
  }

  /** Two keyboard listeners: Space toggles playback and toggles it back. */
  lemma TwoKeyboardListenersCancel(s: PlayerState)
    requires Ready(s) && !s.media.ended && Registrations(s, KeyDown(Space)) == 2
    ensures Step(s, KeyDown(Space)).media.paused == s.media.paused
  {
    var e := KeyDown(Space);
    StepRunsListeners(s, e);
    var h := Listeners.Closure(Listeners.KeyDownClosure, s.generation);
    AnswerTwice(h, s, e);
    assert Answer(h, s, e) == Transport.PlaybackHandler(s);
  }

  /** Two settings-button listeners: a click opens and closes the menu. */
  lemma TwoSettingsListenersCancel(s: PlayerState, granted: bool, pipSupported: bool)
    requires Ready(s) && s.connected
    requires Registrations(s, Click(Listeners.SettingsBtn, granted, pipSupported)) == 2
    ensures Step(s, Click(Listeners.SettingsBtn, granted, pipSupported)).menu.openMenu == s.menu.openMenu
  {
    var e := Click(Listeners.SettingsBtn, granted, pipSupported);
    StepRunsListeners(s, e);
    AnswerTwice(Listeners.Closure(Listeners.ToggleSettingsHandler, s.generation), s, e);
  }

  /** Two `fullscreenchange` listeners: a platform change flips the icons
      twice, so icons that showed the platform's state show the opposite. */
  lemma TwoFullscreenListenersDesync(s: PlayerState)
    requires Ready(s) && Screen.InSync(s) && Registrations(s, PlatformFullscreenChange) == 2
    ensures !Screen.InSync(Step(s, PlatformFullscreenChange))
  {
    var e := PlatformFullscreenChange;
    StepRunsListeners(s, e);
    var flipped := s.(platform := s.platform.(fullscreen := !s.platform.fullscreen));
    AnswerTwice(Listeners.Closure(Listeners.FullscreenChangeClosure, s.generation), flipped, e);
    Screen.DoubledListenerDesyncs(s);
  }

  /** The teardown as written leaves the keyboard listener registered:
      after one mount and unmount, Space still toggles playback. */
  lemma DetachedSpaceStillToggles(s: PlayerState, g: nat)
    requires Ready(s)
    requires forall x :: x in s.subs <==> Listeners.LeftByTeardownAsWritten(x, g)
    ensures Step(s, KeyDown(Space)).media.paused == !(s.media.paused || s.media.ended)
  {
    Listeners.LeftCounts(s.subs, g);
    OneKeyboardListenerToggles(s);
  }

  /** After a remount under the teardown as written, Space runs two
      keyboard listeners: playback is toggled and toggled back. */
  lemma RemountedSpaceKeepsPlayback(s: PlayerState, g: nat)
    requires Ready(s) && !s.media.ended
    requires forall x :: x in s.subs <==> Listeners.LeftByTeardownAsWritten(x, g) || Listeners.Routed(x, g + 1)
    ensures Step(s, KeyDown(Space)).media.paused == s.media.paused
  {
    Listeners.DoubledCounts(s.subs, g);
    TwoKeyboardListenersCancel(s);
  }

  /** After such a remount the settings button runs two toggles: the menu
      never changes between open and closed. */
  lemma RemountedSettingsButtonStuck(s: PlayerState, g: nat, granted: bool, pipSupported: bool)
    requires Ready(s) && s.connected
    requires forall x :: x in s.subs <==> Listeners.LeftByTeardownAsWritten(x, g) || Listeners.Routed(x, g + 1)
    ensures Step(s, Click(Listeners.SettingsBtn, granted, pipSupported)).menu.openMenu == s.menu.openMenu
  {
    Listeners.DoubledCounts(s.subs, g);
    TwoSettingsListenersCancel(s, granted, pipSupported);
  }

  /** After such a remount a platform fullscreen change runs two
      `fullscreenchange` listeners: icons that showed the platform's state
      show the opposite. */
  lemma RemountedFullscreenChangeDesyncs(s: PlayerState, g: nat)
    requires Ready(s) && Screen.InSync(s)
    requires forall x :: x in s.subs <==> Listeners.LeftByTeardownAsWritten(x, g) || Listeners.Routed(x, g + 1)
    ensures !Screen.InSync(Step(s, PlatformFullscreenChange))
  {
    Listeners.DoubledCounts(s.subs, g);
    TwoFullscreenListenersDesync(s);
  }
}

=== FILE: lifecycle.dfy ===
/** The order in which mounts and unmounts register and remove listeners
    (app.js:309-318 and 451-468). `connectedCallback` registers the `ended`
    closure at once, through `initializeReferences` (app.js:304-307), and
    queues `setupEventListeners` with `setTimeout(…, 0)`; the rest of the
    table is registered only when that timeout runs. An unmount or a second
    mount that comes first sees the `bound*` fields of the last setup that
    ran, or none at all. */
module Lifecycle {
  import opened Wrappers
  import opened Listeners

  /** The registrations together with the deferred setups. `queued` holds
      the generations whose setup has not run yet, oldest first, since
      zero-delay timeouts run in the order they were queued; `bound` is the
      generation of the last setup that ran, whose closures the `bound*`
      fields hold; `next` is the generation the next mount creates. */
  datatype Mounting = Mounting(
    subs: multiset<Subscription>,
    connected: bool,
    queued: seq<nat>,
    bound: Option<nat>,
    next: nat)

  /** The callbacks that change the registrations: the platform's
      `connectedCallback` and `disconnectedCallback`, which alternate, and
      the oldest queued setup timeout. */
  datatype Callback = Connected | Disconnected | SetupRuns

  /** A detached component that was never mounted, whose first mount will
      be generation `g`. */
  function Fresh(g: nat): Mounting {
    Mounting(multiset{}, false, [], None, g)
  }

  /** The closure app.js:304-307 registers while resolving the references. */
  function EndedListener(g: nat): Subscription {
    Subscription(Video, Ended, Closure(EndedClosure, g))
  }

  lemma EndedListenerRouted(g: nat)
    ensures Routed(EndedListener(g), g)
  {
  }

  /** `initializeVideo` is bound once, in the constructor (app.js:7), so its
      removal at app.js:452 acts whether or not a setup has run. */
  const MetadataListener := Subscription(Video, LoadedMetadata, InitializeVideo)

  /** The calls of `setupEventListeners`: the table without the `ended`
      closure, which the mount registered already. */
  function SetupCalls(g: nat): (r: seq<Subscription>)
    ensures forall x | x in r :: Routed(x, g)
    ensures forall x | Routed(x, g) && x != EndedListener(g) :: x in r
  {
    MountCallsAreTable(g);
    var calls := MountCalls(g);
    assert forall i | 1 <= i < |calls| :: calls[i] == calls[1..][i - 1];
    calls[1..]
  }

  /** The setup's registrations: what was registered, and every entry of
      the table apart from the `ended` closure. */
  function Setup(subs: multiset<Subscription>, g: nat): (r: multiset<Subscription>)
    ensures NoDuplicates(subs) ==> NoDuplicates(r)
    ensures forall x | x in r :: x in subs || Routed(x, g)
    ensures forall x | x in subs || (Routed(x, g) && x != EndedListener(g)) :: x in r
  {
    AddAll(subs, SetupCalls(g))
  }

  /** `disconnectedCallback` as written with the `bound*` fields it finds.
      Before any setup ran they are all undefined: removing `undefined` and
      adding `undefined` (line 460) do nothing, so only the removal of
      `initializeVideo` can act. */
  function TeardownAsWritten(subs: multiset<Subscription>, bound: Option<nat>): (r: multiset<Subscription>)
    ensures NoDuplicates(subs) ==> NoDuplicates(r)
    ensures bound.None? && NoDuplicates(subs) ==>
              forall x :: x in r <==> x in subs && x != MetadataListener
    ensures bound.Some? && NoDuplicates(subs) ==>
              forall x :: x in r <==>
                || x == Subscription(FullScreenBtn, Click, Closure(FullScreenHandler, bound.value))
                || (x in subs && x !in TeardownCallsBefore(bound.value) && x !in TeardownCallsAfter(bound.value))
  {
    match bound
    case None => RemoveListener(subs, MetadataListener)
    case Some(g) => DisconnectAsWritten(subs, g)
  }

  /** One callback of the component as written. A mount registers the
      `ended` closure and queues its setup; an unmount runs the teardown
      on whatever the fields hold and leaves the queued setups alone; a
      setup that runs registers the rest of its generation's table and
      rebinds the fields, attached or not. */
  function Step(m: Mounting, c: Callback): (r: Mounting)
    ensures NoDuplicates(m.subs) ==> NoDuplicates(r.subs)
    ensures c.Connected? && !m.connected ==>
              && r.connected && r.queued == m.queued + [m.next] && r.next == m.next + 1 && r.bound == m.bound
              && (forall x :: x in r.subs <==> x in m.subs || x == EndedListener(m.next))
    ensures c.Disconnected? && m.connected ==>
              && !r.connected && r.queued == m.queued && r.bound == m.bound && r.next == m.next
              && r.subs == TeardownAsWritten(m.subs, m.bound)
    ensures c.SetupRuns? && m.queued != [] ==>
              && r.connected == m.connected && r.queued == m.queued[1..] && r.next == m.next
              && r.bound == Some(m.queued[0])
              && r.subs == Setup(m.subs, m.queued[0])
    ensures (c.Connected? && m.connected) || (c.Disconnected? && !m.connected) || (c.SetupRuns? && m.queued == []) ==>
              r == m
  {
    match c
    case Connected =>
      if m.connected then m
      else m.(subs := AddListener(m.subs, EndedListener(m.next)), connected := true,
              queued := m.queued + [m.next], next := m.next + 1)
    case Disconnected =>
      if !m.connected then m
      else m.(subs := TeardownAsWritten(m.subs, m.bound), connected := false)
    case SetupRuns =>
      if m.queued == [] then m
      else m.(subs := Setup(m.subs, m.queued[0]), queued := m.queued[1..], bound := Some(m.queued[0]))
  }

  function Run(m: Mounting, cs: seq<Callback>): Mounting
    decreases |cs|
  {
    if cs == [] then m else Run(Step(m, cs[0]), cs[1..])
  }

  /** The lifecycle the teardown's comment "to prevent memory leaks"
      evidently intends: an unmount cancels the setup still queued (a
      `clearTimeout`) and removes every listener of the last mount, the
      `ended` closure included. Nothing else differs from `Step`. */
  function CorrectedStep(m: Mounting, c: Callback): (r: Mounting)
    ensures NoDuplicates(m.subs) ==> NoDuplicates(r.subs)
    ensures c.Disconnected? && m.connected ==>
              && !r.connected && r.queued == [] && r.next == m.next
              && (NoDuplicates(m.subs) && 0 < m.next ==>
                    forall x :: x in r.subs <==> x in m.subs && !Routed(x, m.next - 1))
    ensures !(c.Disconnected? && m.connected) ==> r == Step(m, c)
  {
    if c.Disconnected? && m.connected then
      var removed := if m.next == 0 then m.subs else Disconnect(m.subs, m.next - 1);
      m.(subs := removed, connected := false, queued := [])
    else Step(m, c)
  }

  function CorrectedRun(m: Mounting, cs: seq<Callback>): Mounting
    decreases |cs|
  {
    if cs == [] then m else CorrectedRun(CorrectedStep(m, cs[0]), cs[1..])
  }

  /** Mount and unmount in one task, then a second mount: the callbacks in
      the order the platform and the timeouts run them. */
  const EarlyUnmount: seq<Callback> := [Connected, Disconnected, SetupRuns, Connected, SetupRuns]

  lemma {:induction false} RunEarlyUnmount(m: Mounting)
    ensures Run(m, EarlyUnmount)
            == Step(Step(Step(Step(Step(m, Connected), Disconnected), SetupRuns), Connected), SetupRuns)
  {
    var cs := EarlyUnmount;
    assert cs[1..] == [Disconnected, SetupRuns, Connected, SetupRuns];
    assert cs[1..][1..] == [SetupRuns, Connected, SetupRuns];
    assert cs[1..][1..][1..] == [Connected, SetupRuns];
    assert cs[1..][1..][1..][1..] == [SetupRuns];
    assert cs[1..][1..][1..][1..][1..] == [];
  }

  lemma {:induction false} CorrectedRunEarlyUnmount(m: Mounting)
    ensures CorrectedRun(m, EarlyUnmount)
            == CorrectedStep(CorrectedStep(CorrectedStep(CorrectedStep(CorrectedStep(
                 m, Connected), Disconnected), SetupRuns), Connected), SetupRuns)
  {
    var cs := EarlyUnmount;
    assert cs[1..] == [Disconnected, SetupRuns, Connected, SetupRuns];
    assert cs[1..][1..] == [SetupRuns, Connected, SetupRuns];
    assert cs[1..][1..][1..] == [Connected, SetupRuns];
    assert cs[1..][1..][1..][1..] == [SetupRuns];
    assert cs[1..][1..][1..][1..][1..] == [];
  }

  /** Two different triples answer a pair, and nothing else does. */
  lemma AnsweredTwice(subs: multiset<Subscription>, g: nat, source: Source, event: EventName, kind: ClosureKind)
    requires forall x :: x in subs <==> Routed(x, g) || Routed(x, g + 1)
    requires RoutedHandler(source, event, g) == Some(Closure(kind, g))
    requires RoutedHandler(source, event, g + 1) == Some(Closure(kind, g + 1))
    ensures HandlerCount(subs, source, event) == 2
  {
    var a := Subscription(source, event, Closure(kind, g));
    var b := Subscription(source, event, Closure(kind, g + 1));
    assert Routed(a, g) && Routed(b, g + 1);
    CountTwo(subs, a, b);
  }

  /** The fields of a lifecycle state apart from its registrations, and
      that no triple is registered twice. */
  ghost predicate Shaped(m: Mounting, connected: bool, queued: seq<nat>, bound: Option<nat>, next: nat) {
    && m.connected == connected && m.queued == queued && m.bound == bound && m.next == next
    && NoDuplicates(m.subs)
  }

  /** As written: mount, then unmount before the setup ran. The teardown
      finds no field bound and removes nothing; the `ended` closure stays. */
  lemma EarlyUnmountFirstHalf(g: nat)
    ensures var m := Step(Step(Fresh(g), Connected), Disconnected);
            && Shaped(m, false, [g], None, g + 1)
            && (forall x :: x in m.subs <==> x == EndedListener(g))
  {
  }

  /** A setup run over the `ended` closure of its own mount completes the
      table of that mount, attached or not. */
  lemma SetupCompletesTable(m: Mounting, h: nat)
    requires m.queued == [h] && NoDuplicates(m.subs)
    requires forall x :: x in m.subs <==> x == EndedListener(h)
    ensures var r := Step(m, SetupRuns);
            && Shaped(r, m.connected, [], Some(h), m.next)
            && (forall x :: x in r.subs <==> Routed(x, h))
  {
    EndedListenerRouted(h);
    var r := Step(m, SetupRuns);
    assert m.queued[0] == h && m.queued[1..] == [];
    assert r.subs == Setup(m.subs, h);
    forall x
      ensures x in r.subs <==> Routed(x, h)
    {
      if x == EndedListener(h) {
        assert x in m.subs;
      }
    }
  }

  /** The queued setup runs on the detached component. */
  lemma SetupWhileDetached(m: Mounting, g: nat)
    requires Shaped(m, false, [g], None, g + 1)
    requires forall x :: x in m.subs <==> x == EndedListener(g)
    ensures var r := Step(m, SetupRuns);
            && Shaped(r, false, [], Some(g), g + 1)
            && (forall x :: x in r.subs <==> Routed(x, g))
  {
    SetupCompletesTable(m, g);
  }

  /** The second mount over the orphaned table, and its setup. */
  lemma RemountOverOrphan(m: Mounting, g: nat)
    requires Shaped(m, false, [], Some(g), g + 1)
    requires forall x :: x in m.subs <==> Routed(x, g)
    ensures var r := Step(Step(m, Connected), SetupRuns);
            && Shaped(r, true, [], Some(g + 1), g + 2)
            && (forall x :: x in r.subs <==> Routed(x, g) || Routed(x, g + 1))
  {
    var m4 := Step(m, Connected);
    assert Shaped(m4, true, [g + 1], Some(g), g + 2);
    EndedListenerRouted(g + 1);
  }

  /** Registrations holding two whole tables answer the play, mute and
      rewind buttons twice and `loadedmetadata` once. */
  lemma CountsOfTwoTables(subs: multiset<Subscription>, g: nat)
    requires forall x :: x in subs <==> Routed(x, g) || Routed(x, g + 1)
    ensures HandlerCount(subs, PlaybackBtn, Click) == 2
    ensures HandlerCount(subs, VolumeBtn, Click) == 2
    ensures HandlerCount(subs, RewindBtn, Click) == 2
    ensures HandlerCount(subs, Video, LoadedMetadata) == 1
  {
    AnsweredTwice(subs, g, PlaybackBtn, Click, PlaybackHandler);
    AnsweredTwice(subs, g, VolumeBtn, Click, MuteHandler);
    AnsweredTwice(subs, g, RewindBtn, Click, RewindHandler);
    assert Routed(MetadataListener, g);
    CountOne(subs, MetadataListener);
  }

  /** As written, an unmount before the first setup has run finds every
      `bound*` field undefined and removes nothing. The queued setup then
      registers the whole table on the detached component, and the second
      mount adds its own: the play, mute and rewind buttons each answer
      with two handlers, while `initializeVideo`, one reference, answers
      once. */
  lemma {:induction false} EarlyUnmountRegistersTwice(g: nat)
    ensures var r := Run(Fresh(g), EarlyUnmount);
            && Shaped(r, true, [], Some(g + 1), g + 2)
            && (forall x :: x in r.subs <==> Routed(x, g) || Routed(x, g + 1))
            && HandlerCount(r.subs, PlaybackBtn, Click) == 2
            && HandlerCount(r.subs, VolumeBtn, Click) == 2
            && HandlerCount(r.subs, RewindBtn, Click) == 2
            && HandlerCount(r.subs, Video, LoadedMetadata) == 1
  {
    RunEarlyUnmount(Fresh(g));
    var m2 := Step(Step(Fresh(g), Connected), Disconnected);
    EarlyUnmountFirstHalf(g);
    SetupWhileDetached(m2, g);
    RemountOverOrphan(Step(m2, SetupRuns), g);
    CountsOfTwoTables(Run(Fresh(g), EarlyUnmount).subs, g);
  }

  /** Once generation `g`'s closures are registered and no field, queued
      setup or later mount can name `g` again, every closure of the table
      of `g` stays registered. */
  ghost predicate HoldsOrphanTable(m: Mounting, g: nat) {
    && NoDuplicates(m.subs)
    && g < m.next
    && (forall q | q in m.queued :: g < q)
    && (m.bound.Some? ==> g < m.bound.value)
    && (forall x | Routed(x, g) && x.handler.Closure? :: x in m.subs)
  }

  /** A closure of the table carries the generation of its mount. */
  lemma RoutedClosureGeneration(x: Subscription, g: nat)
    requires Routed(x, g) && x.handler.Closure?
    ensures x.handler.generation == g
  {
    match x.source
    case Video =>
      match x.event {
        case Ended =>
        case LoadedMetadata =>
        case Click =>
        case TimeUpdate =>
      }
    case _ =>
  }

  /** The teardown for generation `b` names no closure of another mount. */
  lemma TeardownSparesOtherMounts(x: Subscription, g: nat, b: nat)
    requires Routed(x, g) && x.handler.Closure? && g != b
    ensures x !in TeardownCallsBefore(b) && x !in TeardownCallsAfter(b)
  {
    RoutedClosureGeneration(x, g);
    if x in TeardownCallsBefore(b) || x in TeardownCallsAfter(b) {
      assert Routed(x, b);
      RoutedClosureGeneration(x, b);
    }
  }

  lemma StepKeepsOrphanTable(m: Mounting, c: Callback, g: nat)
    requires HoldsOrphanTable(m, g)
    ensures HoldsOrphanTable(Step(m, c), g)
  {
    var r := Step(m, c);
    if c.Disconnected? && m.connected && m.bound.Some? {
      var b := m.bound.value;
      forall x | Routed(x, g) && x.handler.Closure?
        ensures x in r.subs
      {
        TeardownSparesOtherMounts(x, g, b);
      }
    } else if c.SetupRuns? && m.queued != [] {
      assert m.queued[0] in m.queued;
      forall q | q in r.queued
        ensures g < q
      {
        assert q in m.queued;
      }
    }
  }

  /** Whatever callbacks follow, the orphaned table is never removed. */
  lemma {:induction false} RunKeepsOrphanTable(m: Mounting, cs: seq<Callback>, g: nat)
    requires HoldsOrphanTable(m, g)
    ensures HoldsOrphanTable(Run(m, cs), g)
    decreases |cs|
  {
    if cs != [] {
      StepKeepsOrphanTable(m, cs[0], g);
      RunKeepsOrphanTable(Step(m, cs[0]), cs[1..], g);
    }
  }

  lemma EarlyUnmountOrphansTable(g: nat)
    ensures HoldsOrphanTable(Run(Fresh(g), EarlyUnmount), g)
  {
    EarlyUnmountRegistersTwice(g);
  }

  /** As written, the first table of an early unmount can never be removed:
      after any later callbacks, its play, mute and rewind closures (and
      every other closure of that mount) are still registered. */
  lemma EarlyUnmountLeaksForever(g: nat, later: seq<Callback>)
    ensures var r := Run(Run(Fresh(g), EarlyUnmount), later);
            && Subscription(PlaybackBtn, Click, Closure(PlaybackHandler, g)) in r.subs
            && Subscription(VolumeBtn, Click, Closure(MuteHandler, g)) in r.subs
            && Subscription(RewindBtn, Click, Closure(RewindHandler, g)) in r.subs
            && (forall x | Routed(x, g) && x.handler.Closure? :: x in r.subs)
  {
    var m := Run(Fresh(g), EarlyUnmount);
    EarlyUnmountOrphansTable(g);
    RunKeepsOrphanTable(m, later, g);
    OrphanedButtons(Run(m, later), g);
  }

  lemma OrphanedButtons(m: Mounting, g: nat)
    requires HoldsOrphanTable(m, g)
    ensures Subscription(PlaybackBtn, Click, Closure(PlaybackHandler, g)) in m.subs
    ensures Subscription(VolumeBtn, Click, Closure(MuteHandler, g)) in m.subs
    ensures Subscription(RewindBtn, Click, Closure(RewindHandler, g)) in m.subs
  {
    assert Routed(Subscription(PlaybackBtn, Click, Closure(PlaybackHandler, g)), g);
    assert Routed(Subscription(VolumeBtn, Click, Closure(MuteHandler, g)), g);
    assert Routed(Subscription(RewindBtn, Click, Closure(RewindHandler, g)), g);
  }

  /** The corrected lifecycle holds at most the table of the last mount, and
      nothing once detached. */
  ghost predicate HoldsLastMount(m: Mounting) {
    && NoDuplicates(m.subs)
    && (forall x | x in m.subs :: 0 < m.next && Routed(x, m.next - 1))
    && (forall q | q in m.queued :: q + 1 == m.next)
    && (!m.connected ==> m.subs == multiset{} && m.queued == [])
  }

  /** Registrations within one table answer every pair at most once. */
  lemma LastMountAnswersOnce(m: Mounting)
    requires HoldsLastMount(m)
    ensures OneHandlerPerPair(m.subs)
  {
  }

  lemma CorrectedUnmountKeepsLastMount(m: Mounting)
    requires HoldsLastMount(m) && m.connected
    ensures HoldsLastMount(CorrectedStep(m, Disconnected))
  {
    var r := CorrectedStep(m, Disconnected);
    if 0 < m.next {
      assert forall x :: x !in r.subs;
    } else {
      assert forall x :: x !in m.subs;
    }
    assert r.subs == multiset{};
  }

  lemma CorrectedMountKeepsLastMount(m: Mounting)
    requires HoldsLastMount(m) && !m.connected
    ensures HoldsLastMount(CorrectedStep(m, Connected))
  {
    var r := CorrectedStep(m, Connected);
    EndedListenerRouted(m.next);
    assert r.queued == [m.next];
  }

  lemma CorrectedSetupKeepsLastMount(m: Mounting)
    requires HoldsLastMount(m) && m.queued != []
    ensures HoldsLastMount(CorrectedStep(m, SetupRuns))
  {
    var r := CorrectedStep(m, SetupRuns);
    var q0 := m.queued[0];
    assert q0 in m.queued;
    assert r == Step(m, SetupRuns);
    assert r.subs == Setup(m.subs, q0);
    forall x | x in r.subs
      ensures Routed(x, q0)
    {
      if x !in m.subs {
        assert x in Setup(m.subs, q0);
      }
    }
    forall q | q in r.queued
      ensures q + 1 == r.next
    {
      assert q in m.queued;
    }
    WithinOneTable(r, q0);
  }

  /** Registrations within the table of the generation just before `next`. */
  lemma WithinOneTable(r: Mounting, g: nat)
    requires NoDuplicates(r.subs) && r.connected && g + 1 == r.next
    requires forall x | x in r.subs :: Routed(x, g)
    requires forall q | q in r.queued :: q + 1 == r.next
    ensures HoldsLastMount(r)
  {
  }

  lemma CorrectedStepKeepsLastMount(m: Mounting, c: Callback)
    requires HoldsLastMount(m)
    ensures HoldsLastMount(CorrectedStep(m, c))
  {
    match c
    case Connected => if !m.connected { CorrectedMountKeepsLastMount(m); }
    case Disconnected => if m.connected { CorrectedUnmountKeepsLastMount(m); }
    case SetupRuns => if m.queued != [] { CorrectedSetupKeepsLastMount(m); }
  }

  /** With the corrected teardown, every run keeps at most one table, so
      every pair answers with at most one handler, whatever order mounts,
      unmounts and timeouts come in. */
  lemma {:induction false} CorrectedRunKeepsLastMount(m: Mounting, cs: seq<Callback>)
    requires HoldsLastMount(m)
    ensures HoldsLastMount(CorrectedRun(m, cs))
    ensures OneHandlerPerPair(CorrectedRun(m, cs).subs)
    decreases |cs|
  {
    if cs == [] {
      LastMountAnswersOnce(m);
    } else {
      CorrectedStepKeepsLastMount(m, cs[0]);
      CorrectedRunKeepsLastMount(CorrectedStep(m, cs[0]), cs[1..]);
    }
  }

  /** A fresh component holds no table. */
  lemma FreshHoldsLastMount(g: nat)
    ensures HoldsLastMount(Fresh(g))
  {
  }

  /** Corrected: mount, then unmount before the setup ran. The unmount
      cancels the setup and removes the `ended` closure. */
  lemma CorrectedEarlyUnmountFirstHalf(g: nat)
    ensures var m := CorrectedStep(CorrectedStep(Fresh(g), Connected), Disconnected);
            && Shaped(m, false, [], None, g + 1)
            && m.subs == multiset{}
  {
    var m := CorrectedStep(CorrectedStep(Fresh(g), Connected), Disconnected);
    assert forall x :: x !in m.subs;
  }

  /** Corrected: no setup is left to run, and the second mount registers
      its `ended` closure. */
  lemma CorrectedRemount(m: Mounting, g: nat)
    requires Shaped(m, false, [], None, g + 1) && m.subs == multiset{}
    ensures var r := CorrectedStep(CorrectedStep(m, SetupRuns), Connected);
            && Shaped(r, true, [g + 1], None, g + 2)
            && (forall x :: x in r.subs <==> x == EndedListener(g + 1))
  {
  }

  /** Corrected: the second mount's setup completes its table. */
  lemma CorrectedSetupAfterRemount(m: Mounting, g: nat)
    requires Shaped(m, true, [g + 1], None, g + 2)
    requires forall x :: x in m.subs <==> x == EndedListener(g + 1)
    ensures var r := CorrectedStep(m, SetupRuns);
            && Shaped(r, true, [], Some(g + 1), g + 2)
            && (forall x :: x in r.subs <==> Routed(x, g + 1))
  {
    SetupCompletesTable(m, g + 1);
  }

  /** One table answers the play button once, and its own teardown removes
      all of it. */
  lemma OneTableTornDown(subs: multiset<Subscription>, g: nat)
    requires NoDuplicates(subs)
    requires forall x :: x in subs <==> Routed(x, g)
    ensures HandlerCount(subs, PlaybackBtn, Click) == 1
    ensures Disconnect(subs, g) == multiset{}
  {
    CountOfTable(subs, g, PlaybackBtn, Click);
    assert forall x :: x !in Disconnect(subs, g);
  }

  /** With the corrected teardown, the early unmount leaves exactly the
      second mount's table, and the next unmount leaves nothing. */
  lemma {:induction false} CorrectedEarlyUnmountRegistersOnce(g: nat)
    ensures var r := CorrectedRun(Fresh(g), EarlyUnmount);
            && r.connected && r.queued == []
            && (forall x :: x in r.subs <==> Routed(x, g + 1))
            && HandlerCount(r.subs, PlaybackBtn, Click) == 1
            && CorrectedStep(r, Disconnected).subs == multiset{}
  {
    CorrectedRunEarlyUnmount(Fresh(g));
    var m2 := CorrectedStep(CorrectedStep(Fresh(g), Connected), Disconnected);
    CorrectedEarlyUnmountFirstHalf(g);
    CorrectedRemount(m2, g);
    var m4 := CorrectedStep(CorrectedStep(m2, SetupRuns), Connected);
    CorrectedSetupAfterRemount(m4, g);
    OneTableTornDown(CorrectedStep(m4, SetupRuns).subs, g + 1);
  }
}

=== FILE: listeners.dfy ===
/** The subscription lifecycle of the component: `setupEventListeners`
    (app.js:320-448), the `ended` listener added while resolving the element
    references (app.js:304-307) and the teardown in `disconnectedCallback`
    (app.js:451-468).

    Registrations are kept as a multiset of (source, event, handler)
    triples. `addEventListener` ignores a triple that is already registered
    and `removeEventListener` drops it, so a multiset built only by these
    two calls never holds a triple twice; what can pile up is several
    DIFFERENT handlers on one (source, event) pair, because every mount
    creates fresh closures. */
module Listeners {
  import opened Wrappers

  datatype Source =
    | Window
    | Document
    | Video
    | PlaybackBtn
    | PauseOverlay
    | OverlayPlayBtn
    | VolumeInput
    | VolumeBtn
    | FullScreenBtn
    | Seek
    | RewindBtn
    | PipBtn
    | SettingsPlaybackBtn
    | SettingsQualityBtn
    | BackBtn(index: nat)
    | RateBtn(index: nat)
    | SettingsBtn

  datatype EventName =
    | Click
    | Change
    | Input
    | MouseMove
    | KeyDown
    | LoadedMetadata
    | TimeUpdate
    | Ended
    | FullscreenChange

  datatype ClosureKind =
    | EndedClosure
    | KeyDownClosure
    | FullscreenChangeClosure
    | PlaybackHandler
    | VolumeHandler
    | MuteHandler
    | TimeUpdateHandler
    | FullScreenHandler
    | SkipAheadHandler
    | SeekTooltipHandler
    | RewindHandler
    | PiPHandler
    | SettingsUIHandler
    | BackHandler
    | PlaybackRateHandler
    | ToggleSettingsHandler

  /** A handler reference. `initializeVideo` is bound once, in the
      constructor; every other handler is a closure created afresh by each
      mount and is identified by the generation of that mount. */
  datatype Handler = InitializeVideo | Closure(kind: ClosureKind, generation: nat)

  datatype Subscription = Subscription(source: Source, event: EventName, handler: Handler)

  /** The template holds one back button per sub-list and six rate buttons. */
  const BackButtons: nat := 2
  const RateButtons: nat := 6

  /** No triple is registered twice. */
  ghost predicate NoDuplicates(subs: multiset<Subscription>) {
    forall x :: subs[x] <= 1
  }

  /** Each (source, event) pair has at most one handler. */
  ghost predicate OneHandlerPerPair(subs: multiset<Subscription>) {
    forall a, b | a in subs && b in subs && a.source == b.source && a.event == b.event :: a == b
  }

  /** `source.addEventListener(event, handler)`. */
  function AddListener(subs: multiset<Subscription>, sub: Subscription): (r: multiset<Subscription>)
    ensures sub in r
    ensures forall x | x != sub :: r[x] == subs[x]
    ensures NoDuplicates(subs) ==> NoDuplicates(r)
  {
    if sub in subs then subs else subs + multiset{sub}
  }

  /** `source.removeEventListener(event, handler)`. */
  function RemoveListener(subs: multiset<Subscription>, sub: Subscription): (r: multiset<Subscription>)
    ensures forall x | x != sub :: r[x] == subs[x]
    ensures NoDuplicates(subs) ==> sub !in r && NoDuplicates(r)
  {
    subs - multiset{sub}
  }

  /** Registers each triple of `calls` in order. */
  function AddAll(subs: multiset<Subscription>, calls: seq<Subscription>): (r: multiset<Subscription>)
    ensures NoDuplicates(subs) ==> NoDuplicates(r)
    ensures forall x :: x in r <==> x in subs || x in calls
    decreases |calls|
  {
    if calls == [] then subs
    else AddAll(AddListener(subs, calls[0]), calls[1..])
  }

  /** Unregisters each triple of `calls` in order. */
  function RemoveAll(subs: multiset<Subscription>, calls: seq<Subscription>): (r: multiset<Subscription>)
    ensures NoDuplicates(subs) ==> NoDuplicates(r) && forall x :: x in r <==> x in subs && x !in calls
    ensures forall x | x !in calls :: r[x] == subs[x]
    decreases |calls|
  {
    if calls == [] then subs
    else RemoveAll(RemoveListener(subs, calls[0]), calls[1..])
  }

  /** The triples one mount registers, in the order of the source: the
      `ended` closure of app.js:304, then app.js:376-435. */
  function MountCalls(g: nat): seq<Subscription> {
    [ Subscription(Video, Ended, Closure(EndedClosure, g)),
      Subscription(Window, KeyDown, Closure(KeyDownClosure, g)),
      Subscription(Video, LoadedMetadata, InitializeVideo),
      Subscription(PlaybackBtn, Click, Closure(PlaybackHandler, g)),
      Subscription(PauseOverlay, Click, Closure(PlaybackHandler, g)),
      Subscription(Video, Click, Closure(PlaybackHandler, g)),
      Subscription(OverlayPlayBtn, Click, Closure(PlaybackHandler, g)),
      Subscription(VolumeInput, Change, Closure(VolumeHandler, g)),
      Subscription(VolumeBtn, Click, Closure(MuteHandler, g)),
      Subscription(Video, TimeUpdate, Closure(TimeUpdateHandler, g)),
      Subscription(FullScreenBtn, Click, Closure(FullScreenHandler, g)),
      Subscription(Seek, Input, Closure(SkipAheadHandler, g)),
      Subscription(Seek, MouseMove, Closure(SeekTooltipHandler, g)),
      Subscription(RewindBtn, Click, Closure(RewindHandler, g)),
      Subscription(PipBtn, Click, Closure(PiPHandler, g)),
      Subscription(SettingsPlaybackBtn, Click, Closure(SettingsUIHandler, g)),
      Subscription(SettingsQualityBtn, Click, Closure(SettingsUIHandler, g)),
      Subscription(BackBtn(0), Click, Closure(BackHandler, g)),
      Subscription(BackBtn(1), Click, Closure(BackHandler, g)),
      Subscription(RateBtn(0), Click, Closure(PlaybackRateHandler, g)),
      Subscription(RateBtn(1), Click, Closure(PlaybackRateHandler, g)),
      Subscription(RateBtn(2), Click, Closure(PlaybackRateHandler, g)),
      Subscription(RateBtn(3), Click, Closure(PlaybackRateHandler, g)),
      Subscription(RateBtn(4), Click, Closure(PlaybackRateHandler, g)),
      Subscription(RateBtn(5), Click, Closure(PlaybackRateHandler, g)),
      Subscription(SettingsBtn, Click, Closure(ToggleSettingsHandler, g)),
      Subscription(Document, FullscreenChange, Closure(FullscreenChangeClosure, g)) ]
  }

  /** The listener table a mounted component is meant to have: for each
      (source, event) pair, the one handler that answers it. */
  function RoutedHandler(source: Source, event: EventName, g: nat): Option<Handler> {
    match source
    case Window => if event == KeyDown then Some(Closure(KeyDownClosure, g)) else None
    case Document => if event == FullscreenChange then Some(Closure(FullscreenChangeClosure, g)) else None
    case Video =>
      (match event
       case Ended => Some(Closure(EndedClosure, g))
       case LoadedMetadata => Some(InitializeVideo)
       case Click => Some(Closure(PlaybackHandler, g))
       case TimeUpdate => Some(Closure(TimeUpdateHandler, g))
       case _ => None)
    case PlaybackBtn => ClickOnly(event, Closure(PlaybackHandler, g))
    case PauseOverlay => ClickOnly(event, Closure(PlaybackHandler, g))
    case OverlayPlayBtn => ClickOnly(event, Closure(PlaybackHandler, g))
    case VolumeInput => if event == Change then Some(Closure(VolumeHandler, g)) else None
    case VolumeBtn => ClickOnly(event, Closure(MuteHandler, g))
    case FullScreenBtn => ClickOnly(event, Closure(FullScreenHandler, g))
    case Seek =>
      if event == Input then Some(Closure(SkipAheadHandler, g))
      else if event == MouseMove then Some(Closure(SeekTooltipHandler, g))
      else None
    case RewindBtn => ClickOnly(event, Closure(RewindHandler, g))
    case PipBtn => ClickOnly(event, Closure(PiPHandler, g))
    case SettingsPlaybackBtn => ClickOnly(event, Closure(SettingsUIHandler, g))
    case SettingsQualityBtn => ClickOnly(event, Closure(SettingsUIHandler, g))
    case BackBtn(i) => if i < BackButtons then ClickOnly(event, Closure(BackHandler, g)) else None
    case RateBtn(i) => if i < RateButtons then ClickOnly(event, Closure(PlaybackRateHandler, g)) else None
    case SettingsBtn => ClickOnly(event, Closure(ToggleSettingsHandler, g))
  }

  function ClickOnly(event: EventName, h: Handler): Option<Handler> {
    if event == Click then Some(h) else None
  }

  /** Only `fullscreenchange` on the document is answered by the
      fullscreen-change closure. */
  lemma OnlyFullscreenChangeRoutesThere(source: Source, event: EventName, g: nat)
    ensures RoutedHandler(source, event, g).Some? && RoutedHandler(source, event, g).value.Closure?
            && RoutedHandler(source, event, g).value.kind == FullscreenChangeClosure
            ==> source == Document && event == FullscreenChange
  {
  }

  predicate Routed(sub: Subscription, g: nat) {
    RoutedHandler(sub.source, sub.event, g) == Some(sub.handler)
  }

  /** The listener table names one handler per (source, event) pair, so a
      registration set that is exactly the table answers each pair once. */
  lemma TableHasOneHandlerPerPair(r: multiset<Subscription>, g: nat)
    requires forall x :: x in r <==> Routed(x, g)
    ensures OneHandlerPerPair(r)
  {
  }

  /** Every triple the mount registers is in the listener table. */
  lemma {:induction false} MountCallsRouted(g: nat)
    ensures forall x | x in MountCalls(g) :: Routed(x, g)
  {
    var calls := MountCalls(g);
    forall i | 0 <= i < |calls|
      ensures Routed(calls[i], g)
    {
    }
  }

  /** Every entry of the listener table is registered by the mount. */
  lemma {:induction false} RoutedInMountCalls(x: Subscription, g: nat)
    requires Routed(x, g)
    ensures x in MountCalls(g)
  {
    var calls := MountCalls(g);
    match x.source
    case Window => assert x == calls[1];
    case Document => assert x == calls[26];
    case Video =>
      match x.event {
        case Ended => assert x == calls[0];
        case LoadedMetadata => assert x == calls[2];
        case Click => assert x == calls[5];
        case TimeUpdate => assert x == calls[9];
      }
    case PlaybackBtn => assert x == calls[3];
    case PauseOverlay => assert x == calls[4];
    case OverlayPlayBtn => assert x == calls[6];
    case VolumeInput => assert x == calls[7];
    case VolumeBtn => assert x == calls[8];
    case FullScreenBtn => assert x == calls[10];
    case Seek => if x.event == Input { assert x == calls[11]; } else { assert x == calls[12]; }
    case RewindBtn => assert x == calls[13];
    case PipBtn => assert x == calls[14];
    case SettingsPlaybackBtn => assert x == calls[15];
    case SettingsQualityBtn => assert x == calls[16];
    case BackBtn(i) => assert x == calls[17 + i];
    case RateBtn(i) => assert x == calls[19 + i];
    case SettingsBtn => assert x == calls[25];
  }

  /** The mount registers exactly the listener table. */
  lemma {:induction false} MountCallsAreTable(g: nat)
    ensures forall x :: x in MountCalls(g) <==> Routed(x, g)
  {
    MountCallsRouted(g);
    forall x | Routed(x, g)
      ensures x in MountCalls(g)
    {
      RoutedInMountCalls(x, g);
    }
  }

  /** Mounting: app.js:304-307 followed by `setupEventListeners`. */
  function Mount(subs: multiset<Subscription>, g: nat): (r: multiset<Subscription>)
    ensures NoDuplicates(subs) ==> NoDuplicates(r)
    ensures forall x :: x in r <==> x in subs || Routed(x, g)
  {
    MountCallsAreTable(g);
    AddAll(subs, MountCalls(g))
  }

  /** The `removeEventListener` calls of `disconnectedCallback` that precede
      line 460, then the ones that follow it. */
  function TeardownCallsBefore(g: nat): (r: seq<Subscription>)
    ensures |r| == 8
    ensures forall i | 0 <= i < |r| :: Routed(r[i], g)
  {
    [ Subscription(Video, LoadedMetadata, InitializeVideo),
      Subscription(PlaybackBtn, Click, Closure(PlaybackHandler, g)),
      Subscription(PauseOverlay, Click, Closure(PlaybackHandler, g)),
      Subscription(Video, Click, Closure(PlaybackHandler, g)),
      Subscription(OverlayPlayBtn, Click, Closure(PlaybackHandler, g)),
      Subscription(VolumeInput, Change, Closure(VolumeHandler, g)),
      Subscription(VolumeBtn, Click, Closure(MuteHandler, g)),
      Subscription(Video, TimeUpdate, Closure(TimeUpdateHandler, g)) ]
  }

  function TeardownCallsAfter(g: nat): (r: seq<Subscription>)
    ensures |r| == 4
    ensures forall i | 0 <= i < |r| :: Routed(r[i], g)
  {
    [ Subscription(Seek, Input, Closure(SkipAheadHandler, g)),
      Subscription(Seek, MouseMove, Closure(SeekTooltipHandler, g)),
      Subscription(RewindBtn, Click, Closure(RewindHandler, g)),
      Subscription(PipBtn, Click, Closure(PiPHandler, g)) ]
  }

  /** `disconnectedCallback` as written: twelve removals around an
      `addEventListener` for the fullscreen button at line 460. That call
      passes the reference the mount registered at app.js:407, so while
      mounted it adds nothing: the click listener is simply never removed. */
  function DisconnectAsWritten(subs: multiset<Subscription>, g: nat): (r: multiset<Subscription>)
    ensures NoDuplicates(subs) ==> NoDuplicates(r)
    ensures NoDuplicates(subs) ==>
              forall x :: x in r <==>
                || x == Subscription(FullScreenBtn, Click, Closure(FullScreenHandler, g))
                || (x in subs && x !in TeardownCallsBefore(g) && x !in TeardownCallsAfter(g))
  {
    var removed := RemoveAll(subs, TeardownCallsBefore(g));
    var added := AddListener(removed, Subscription(FullScreenBtn, Click, Closure(FullScreenHandler, g)));
    RemoveAll(added, TeardownCallsAfter(g))
  }

  /** The teardown the comment "to prevent memory leaks" and the mount
      evidently intend: every triple the mount registered is removed, using
      the same handler references. */
  function Disconnect(subs: multiset<Subscription>, g: nat): (r: multiset<Subscription>)
    ensures NoDuplicates(subs) ==> NoDuplicates(r)
    ensures NoDuplicates(subs) ==> forall x :: x in r <==> x in subs && !Routed(x, g)
  {
    MountCallsAreTable(g);
    RemoveAll(subs, MountCalls(g))
  }

  /** Mount followed by the intended teardown restores the registrations
      exactly, whatever other listeners were registered. */
  lemma {:induction false} DisconnectUndoesMount(subs: multiset<Subscription>, g: nat)
    requires NoDuplicates(subs)
    requires forall x | x in subs :: !Routed(x, g)
    ensures Disconnect(Mount(subs, g), g) == subs
  {
    var m := Mount(subs, g);
    var r := Disconnect(m, g);
    assert NoDuplicates(m);
    forall x
      ensures r[x] == subs[x]
    {
      if x in subs {
        assert x in m && !Routed(x, g);
        assert x in r;
      } else {
        assert x !in r;
      }
    }
  }

  /** Mount, unmount and mount again leaves exactly the table of the last
      mount: one handler for every (source, event) pair, none of them left
      from the first mount. */
  lemma {:induction false} RemountRegistersOnce(g: nat)
    ensures var r := Mount(Disconnect(Mount(multiset{}, g), g), g + 1);
            && NoDuplicates(r)
            && OneHandlerPerPair(r)
            && (forall x :: x in r <==> Routed(x, g + 1))
  {
    DisconnectUndoesMount(multiset{}, g);
  }

  /** What the teardown as written leaves of a first mount: every listener
      of the mount it does not remove, the fullscreen-button click among
      them. */
  predicate LeftByTeardownAsWritten(x: Subscription, g: nat) {
    || x == Subscription(FullScreenBtn, Click, Closure(FullScreenHandler, g))
    || (Routed(x, g) && x !in TeardownCallsBefore(g) && x !in TeardownCallsAfter(g))
  }

  lemma {:induction false} TeardownAsWrittenMembers(g: nat)
    ensures forall x :: x in DisconnectAsWritten(Mount(multiset{}, g), g) <==> LeftByTeardownAsWritten(x, g)
  {
    assert NoDuplicates(Mount(multiset{}, g));
  }

  /** The window, document and media listeners a multiset holding exactly
      what the teardown as written leaves must contain. */
  lemma {:induction false} LeftGlobalListeners(r: multiset<Subscription>, g: nat)
    requires forall x :: x in r <==> LeftByTeardownAsWritten(x, g)
    ensures Subscription(FullScreenBtn, Click, Closure(FullScreenHandler, g)) in r
    ensures Subscription(Window, KeyDown, Closure(KeyDownClosure, g)) in r
    ensures Subscription(Document, FullscreenChange, Closure(FullscreenChangeClosure, g)) in r
    ensures Subscription(Video, Ended, Closure(EndedClosure, g)) in r
  {
    var leaked := [
      Subscription(Window, KeyDown, Closure(KeyDownClosure, g)),
      Subscription(Document, FullscreenChange, Closure(FullscreenChangeClosure, g)),
      Subscription(Video, Ended, Closure(EndedClosure, g))];
    forall k | 0 <= k < |leaked|
      ensures leaked[k] in r
    {
      assert Routed(leaked[k], g);
      assert leaked[k] !in TeardownCallsBefore(g) && leaked[k] !in TeardownCallsAfter(g);
    }
    assert leaked[0] in r && leaked[1] in r && leaked[2] in r;
  }

  /** The settings-menu listeners a multiset holding exactly what the
      teardown as written leaves must contain. */
  lemma {:induction false} LeftMenuListeners(r: multiset<Subscription>, g: nat)
    requires forall x :: x in r <==> LeftByTeardownAsWritten(x, g)
    ensures Subscription(SettingsBtn, Click, Closure(ToggleSettingsHandler, g)) in r
    ensures forall i: nat | i < BackButtons :: Subscription(BackBtn(i), Click, Closure(BackHandler, g)) in r
    ensures forall i: nat | i < RateButtons :: Subscription(RateBtn(i), Click, Closure(PlaybackRateHandler, g)) in r
  {
    var settings := Subscription(SettingsBtn, Click, Closure(ToggleSettingsHandler, g));
    assert Routed(settings, g);
    assert settings !in TeardownCallsBefore(g) && settings !in TeardownCallsAfter(g);
    forall i: nat | i < BackButtons
      ensures Subscription(BackBtn(i), Click, Closure(BackHandler, g)) in r
    {
      var x := Subscription(BackBtn(i), Click, Closure(BackHandler, g));
      assert Routed(x, g);
      assert x !in TeardownCallsBefore(g) && x !in TeardownCallsAfter(g);
    }
    forall i: nat | i < RateButtons
      ensures Subscription(RateBtn(i), Click, Closure(PlaybackRateHandler, g)) in r
    {
      var x := Subscription(RateBtn(i), Click, Closure(PlaybackRateHandler, g));
      assert Routed(x, g);
      assert x !in TeardownCallsBefore(g) && x !in TeardownCallsAfter(g);
    }
  }

  /** The teardown as written leaves registered the fullscreen-button
      handler it adds instead of removing, and the keyboard, fullscreen
      change, `ended`, back, rate and settings listeners it never removes. */
  lemma {:induction false} TeardownAsWrittenLeaks(g: nat)
    ensures var r := DisconnectAsWritten(Mount(multiset{}, g), g);
            && Subscription(FullScreenBtn, Click, Closure(FullScreenHandler, g)) in r
            && Subscription(Window, KeyDown, Closure(KeyDownClosure, g)) in r
            && Subscription(Document, FullscreenChange, Closure(FullscreenChangeClosure, g)) in r
            && Subscription(Video, Ended, Closure(EndedClosure, g)) in r
            && Subscription(SettingsBtn, Click, Closure(ToggleSettingsHandler, g)) in r
            && (forall i: nat | i < BackButtons :: Subscription(BackBtn(i), Click, Closure(BackHandler, g)) in r)
            && (forall i: nat | i < RateButtons :: Subscription(RateBtn(i), Click, Closure(PlaybackRateHandler, g)) in r)
  {
    TeardownAsWrittenMembers(g);
    LeftGlobalListeners(DisconnectAsWritten(Mount(multiset{}, g), g), g);
    LeftMenuListeners(DisconnectAsWritten(Mount(multiset{}, g), g), g);
  }

  lemma {:induction false} RemountAsWrittenMembers(g: nat)
    ensures forall x :: x in Mount(DisconnectAsWritten(Mount(multiset{}, g), g), g + 1) <==>
                        LeftByTeardownAsWritten(x, g) || Routed(x, g + 1)
  {
    TeardownAsWrittenMembers(g);
  }

  /** Two fullscreen-button handlers and two fullscreen-change handlers in
      a multiset that holds what the teardown as written leaves plus a new mount. */
  lemma {:induction false} DoubledListeners(r: multiset<Subscription>, g: nat)
    requires forall x :: x in r <==> LeftByTeardownAsWritten(x, g) || Routed(x, g + 1)
    ensures Subscription(FullScreenBtn, Click, Closure(FullScreenHandler, g)) in r
    ensures Subscription(FullScreenBtn, Click, Closure(FullScreenHandler, g + 1)) in r
    ensures Subscription(Document, FullscreenChange, Closure(FullscreenChangeClosure, g)) in r
    ensures Subscription(Document, FullscreenChange, Closure(FullscreenChangeClosure, g + 1)) in r
    ensures !OneHandlerPerPair(r)
  {
    var old_ := Subscription(Document, FullscreenChange, Closure(FullscreenChangeClosure, g));
    assert Routed(old_, g);
    assert old_ !in TeardownCallsBefore(g) && old_ !in TeardownCallsAfter(g);
    assert LeftByTeardownAsWritten(old_, g);
    var a := Subscription(FullScreenBtn, Click, Closure(FullScreenHandler, g));
    var b := Subscription(FullScreenBtn, Click, Closure(FullScreenHandler, g + 1));
    assert LeftByTeardownAsWritten(a, g);
    assert Routed(b, g + 1);
    assert Routed(Subscription(Document, FullscreenChange, Closure(FullscreenChangeClosure, g + 1)), g + 1);
    assert a in r && b in r && a != b;
  }

  /** After mount, the teardown as written and a second mount, the
      fullscreen button and the fullscreen-change event each answer with
      two different handlers, so one click or one change runs twice. */
  lemma {:induction false} RemountAsWrittenDoublesHandlers(g: nat)
    ensures var r := Mount(DisconnectAsWritten(Mount(multiset{}, g), g), g + 1);
            && Subscription(FullScreenBtn, Click, Closure(FullScreenHandler, g)) in r
            && Subscription(FullScreenBtn, Click, Closure(FullScreenHandler, g + 1)) in r
            && Subscription(Document, FullscreenChange, Closure(FullscreenChangeClosure, g)) in r
            && Subscription(Document, FullscreenChange, Closure(FullscreenChangeClosure, g + 1)) in r
            && !OneHandlerPerPair(r)
  {
    RemountAsWrittenMembers(g);
    DoubledListeners(Mount(DisconnectAsWritten(Mount(multiset{}, g), g), g + 1), g);
  }

  /** The number of handlers one dispatch of `event` at `source` runs: one
      per registered triple on that pair. */
  function HandlerCount(subs: multiset<Subscription>, source: Source, event: EventName): (n: nat)
    ensures n == 0 <==> forall x | x in subs :: x.source != source || x.event != event
  {
    var answering := set x | x in subs && x.source == source && x.event == event;
    assert forall x | x in subs && x.source == source && x.event == event :: x in answering;
    |answering|
  }

  /** A registered triple answers its pair. */
  lemma CountOfRegistered(subs: multiset<Subscription>, x: Subscription)
    requires x in subs
    ensures HandlerCount(subs, x.source, x.event) >= 1
  {
  }

  /** A pair answered by one registered triple and no other. */
  lemma CountOne(subs: multiset<Subscription>, a: Subscription)
    requires a in subs
    requires forall x | x in subs && x.source == a.source && x.event == a.event :: x == a
    ensures HandlerCount(subs, a.source, a.event) == 1
  {
    var answering := set x | x in subs && x.source == a.source && x.event == a.event;
    assert answering == {a};
  }

  /** A pair answered by two different registered triples and no other. */
  lemma CountTwo(subs: multiset<Subscription>, a: Subscription, b: Subscription)
    requires a in subs && b in subs && a != b
    requires b.source == a.source && b.event == a.event
    requires forall x | x in subs && x.source == a.source && x.event == a.event :: x == a || x == b
    ensures HandlerCount(subs, a.source, a.event) == 2
  {
    var answering := set x | x in subs && x.source == a.source && x.event == a.event;
    assert answering == {a, b};
  }

  /** Registrations that are exactly one listener table answer each pair of
      the table once and every other pair not at all. */
  lemma {:induction false} CountOfTable(subs: multiset<Subscription>, g: nat, source: Source, event: EventName)
    requires forall x :: x in subs <==> Routed(x, g)
    ensures HandlerCount(subs, source, event) == if RoutedHandler(source, event, g).Some? then 1 else 0
  {
    match RoutedHandler(source, event, g)
    case None =>
    case Some(h) =>
      var a := Subscription(source, event, h);
      assert Routed(a, g);
      CountOne(subs, a);
  }

  /** Registrations holding what the teardown as written leaves of a mount
      answer a pair of the table once when its handler was left, and not
      at all otherwise. */
  lemma {:induction false} CountOfLeft(r: multiset<Subscription>, g: nat, source: Source, event: EventName)
    requires forall x :: x in r <==> LeftByTeardownAsWritten(x, g)
    requires RoutedHandler(source, event, g).Some?
    ensures var a := Subscription(source, event, RoutedHandler(source, event, g).value);
            HandlerCount(r, source, event) == if LeftByTeardownAsWritten(a, g) then 1 else 0
  {
    var a := Subscription(source, event, RoutedHandler(source, event, g).value);
    if LeftByTeardownAsWritten(a, g) {
      CountOne(r, a);
    }
  }

  /** The same registrations plus the table of a second mount answer such
      a pair twice when the first mount's handler was left, once otherwise. */
  lemma {:induction false} CountOfLeftAndTable(r: multiset<Subscription>, g: nat, source: Source, event: EventName)
    requires forall x :: x in r <==> LeftByTeardownAsWritten(x, g) || Routed(x, g + 1)
    requires RoutedHandler(source, event, g).Some?
    ensures var a := Subscription(source, event, RoutedHandler(source, event, g).value);
            HandlerCount(r, source, event) == if LeftByTeardownAsWritten(a, g) then 2 else 1
  {
    var a := Subscription(source, event, RoutedHandler(source, event, g).value);
    var b := Subscription(source, event, RoutedHandler(source, event, g + 1).value);
    assert b in r by {
      assert Routed(b, g + 1);
    }
    AnswerersOfPair(r, g, a, b);
    if LeftByTeardownAsWritten(a, g) {
      assert a in r;
      LeftIsOfOneGeneration(a, b, g);
      CountTwo(r, a, b);
    } else {
      forall x | x in r && x.source == source && x.event == event
        ensures x == b
      {
        if x == a {
          assert Routed(a, g + 1);
        }
      }
      CountOne(r, b);
    }
  }

  /** Only the two handlers of a pair answer it after the remount. */
  lemma AnswerersOfPair(r: multiset<Subscription>, g: nat, a: Subscription, b: Subscription)
    requires forall x :: x in r <==> LeftByTeardownAsWritten(x, g) || Routed(x, g + 1)
    requires Routed(a, g) && Routed(b, g + 1) && b.source == a.source && b.event == a.event
    ensures forall x | x in r && x.source == a.source && x.event == a.event :: x == a || x == b
  {
    forall x | x in r && x.source == a.source && x.event == a.event
      ensures x == a || x == b
    {
      if !Routed(x, g + 1) {
        assert Routed(x, g);
      }
    }
  }

  /** A handler the teardown as written leaves belongs to its mount, so it
      differs from the handler the next mount registers for the pair. */
  lemma LeftIsOfOneGeneration(a: Subscription, b: Subscription, g: nat)
    requires LeftByTeardownAsWritten(a, g) && Routed(a, g) && Routed(b, g + 1)
    ensures a != b
  {
  }

  /** After a mount and the teardown as written, a pair of the table is
      answered once when the teardown left its handler, and not at all
      otherwise. */
  lemma {:induction false} TeardownAsWrittenCount(g: nat, source: Source, event: EventName)
    requires RoutedHandler(source, event, g).Some?
    ensures var a := Subscription(source, event, RoutedHandler(source, event, g).value);
            HandlerCount(DisconnectAsWritten(Mount(multiset{}, g), g), source, event)
              == if LeftByTeardownAsWritten(a, g) then 1 else 0
  {
    TeardownAsWrittenMembers(g);
    CountOfLeft(DisconnectAsWritten(Mount(multiset{}, g), g), g, source, event);
  }

  /** After a mount, the teardown as written and a second mount, a pair of
      the table is answered twice when the teardown left the first mount's
      handler, and once otherwise. */
  lemma {:induction false} RemountAsWrittenCount(g: nat, source: Source, event: EventName)
    requires RoutedHandler(source, event, g).Some?
    ensures var a := Subscription(source, event, RoutedHandler(source, event, g).value);
            HandlerCount(Mount(DisconnectAsWritten(Mount(multiset{}, g), g), g + 1), source, event)
              == if LeftByTeardownAsWritten(a, g) then 2 else 1
  {
    RemountAsWrittenMembers(g);
    CountOfLeftAndTable(Mount(DisconnectAsWritten(Mount(multiset{}, g), g), g + 1), g, source, event);
  }

  /** The generation of the mount that created a handler; `initializeVideo`
      predates every mount. */
  function HandlerGeneration(h: Handler): nat {
    match h
    case InitializeVideo => 0
    case Closure(_, g) => g
  }

  /** The code a handler runs: its reference without the generation. */
  function Code(h: Handler): Handler {
    match h
    case InitializeVideo => InitializeVideo
    case Closure(kind, _) => Closure(kind, 0)
  }

  /** Every registered triple is an entry of the listener table of the mount
      that created its handler. */
  ghost predicate Conforms(subs: multiset<Subscription>) {
    forall x | x in subs :: Routed(x, HandlerGeneration(x.handler))
  }

  /** The tables of two mounts differ only in the generation of their
      closures. */
  lemma TableCodeAgrees(source: Source, event: EventName, g: nat, h: nat)
    ensures RoutedHandler(source, event, g).Some? <==> RoutedHandler(source, event, h).Some?
    ensures RoutedHandler(source, event, g).Some? ==>
              Code(RoutedHandler(source, event, g).value) == Code(RoutedHandler(source, event, h).value)
    ensures RoutedHandler(source, event, g).Some? ==>
              HandlerGeneration(RoutedHandler(source, event, g).value) in {0, g}
  {
  }

  /** Conforming registrations run, on every pair, the code of the current
      table, whichever mount registered them: so a dispatch runs the
      table's handler once per registered triple. */
  lemma ConformingHandlersRunTableCode(subs: multiset<Subscription>, x: Subscription, g: nat)
    requires Conforms(subs) && x in subs
    ensures RoutedHandler(x.source, x.event, g).Some?
    ensures Code(RoutedHandler(x.source, x.event, g).value) == Code(x.handler)
  {
    TableCodeAgrees(x.source, x.event, g, HandlerGeneration(x.handler));
  }

  /** A table entry conforms. */
  lemma RoutedConforms(x: Subscription, g: nat)
    requires Routed(x, g)
    ensures Routed(x, HandlerGeneration(x.handler))
  {
    TableCodeAgrees(x.source, x.event, g, HandlerGeneration(x.handler));
  }

  lemma MountConforms(subs: multiset<Subscription>, g: nat)
    requires Conforms(subs)
    ensures Conforms(Mount(subs, g))
  {
    forall x | x in Mount(subs, g)
      ensures Routed(x, HandlerGeneration(x.handler))
    {
      if x !in subs {
        RoutedConforms(x, g);
      }
    }
  }

  lemma DisconnectAsWrittenConforms(subs: multiset<Subscription>, g: nat)
    requires NoDuplicates(subs) && Conforms(subs)
    ensures Conforms(DisconnectAsWritten(subs, g))
  {
    FullscreenClickConforms(g);
    var click := Subscription(FullScreenBtn, Click, Closure(FullScreenHandler, g));
    var r := DisconnectAsWritten(subs, g);
    forall x | x in r
      ensures Routed(x, HandlerGeneration(x.handler))
    {
      if x != click {
        assert x in subs;
      }
    }
  }

  /** The fullscreen-button click the teardown as written adds is an entry
      of the table of its mount. */
  lemma FullscreenClickConforms(g: nat)
    ensures var click := Subscription(FullScreenBtn, Click, Closure(FullScreenHandler, g));
            Routed(click, HandlerGeneration(click.handler))
  {
  }

  lemma DisconnectConforms(subs: multiset<Subscription>, g: nat)
    requires NoDuplicates(subs) && Conforms(subs)
    ensures Conforms(Disconnect(subs, g))
  {
  }

  /** What the teardown as written leaves answers the keyboard and
      `fullscreenchange` once. */
  lemma LeftCounts(r: multiset<Subscription>, g: nat)
    requires forall x :: x in r <==> LeftByTeardownAsWritten(x, g)
    ensures HandlerCount(r, Window, KeyDown) == 1
    ensures HandlerCount(r, Document, FullscreenChange) == 1
  {
    var a := Subscription(Window, KeyDown, Closure(KeyDownClosure, g));
    assert a !in TeardownCallsBefore(g) && a !in TeardownCallsAfter(g);
    CountOfLeft(r, g, Window, KeyDown);
    var b := Subscription(Document, FullscreenChange, Closure(FullscreenChangeClosure, g));
    assert b !in TeardownCallsBefore(g) && b !in TeardownCallsAfter(g);
    CountOfLeft(r, g, Document, FullscreenChange);
  }

  /** What the teardown as written leaves plus a second mount answers the
      keyboard, the settings button and `fullscreenchange` twice. */
  lemma DoubledCounts(r: multiset<Subscription>, g: nat)
    requires forall x :: x in r <==> LeftByTeardownAsWritten(x, g) || Routed(x, g + 1)
    ensures HandlerCount(r, Window, KeyDown) == 2
    ensures HandlerCount(r, SettingsBtn, Click) == 2
    ensures HandlerCount(r, Document, FullscreenChange) == 2
  {
    TeardownKeeps(g);
    DoubledCount(r, g, Window, KeyDown, KeyDownClosure);
    DoubledCount(r, g, SettingsBtn, Click, ToggleSettingsHandler);
    DoubledCount(r, g, Document, FullscreenChange, FullscreenChangeClosure);
  }

  lemma DoubledCount(r: multiset<Subscription>, g: nat, source: Source, event: EventName, kind: ClosureKind)
    requires forall x :: x in r <==> LeftByTeardownAsWritten(x, g) || Routed(x, g + 1)
    requires RoutedHandler(source, event, g) == Some(Closure(kind, g))
    requires Subscription(source, event, Closure(kind, g)) !in TeardownCallsBefore(g) + TeardownCallsAfter(g)
    ensures HandlerCount(r, source, event) == 2
  {
    CountOfLeftAndTable(r, g, source, event);
  }

  /** The teardown as written removes neither the keyboard listener, the
      settings-button listener nor the `fullscreenchange` listener. */
  lemma TeardownKeeps(g: nat)
    ensures RoutedHandler(Window, KeyDown, g) == Some(Closure(KeyDownClosure, g))
    ensures RoutedHandler(SettingsBtn, Click, g) == Some(Closure(ToggleSettingsHandler, g))
    ensures RoutedHandler(Document, FullscreenChange, g) == Some(Closure(FullscreenChangeClosure, g))
    ensures Subscription(Window, KeyDown, Closure(KeyDownClosure, g)) !in TeardownCallsBefore(g) + TeardownCallsAfter(g)
    ensures Subscription(SettingsBtn, Click, Closure(ToggleSettingsHandler, g)) !in TeardownCallsBefore(g) + TeardownCallsAfter(g)
    ensures Subscription(Document, FullscreenChange, Closure(FullscreenChangeClosure, g)) !in TeardownCallsBefore(g) + TeardownCallsAfter(g)
  {
  }

  /** A second mount over what the teardown as written left. */
  lemma MountOverLeft(r: multiset<Subscription>, g: nat)
    requires forall x :: x in r <==> LeftByTeardownAsWritten(x, g)
    ensures forall x :: x in Mount(r, g + 1) <==> LeftByTeardownAsWritten(x, g) || Routed(x, g + 1)
  {
  }
}

=== FILE: player.dfy ===
/** The component `VideoPlayer` (app.js) as one immutable record: the media
    element it drives, the platform's fullscreen and picture-in-picture
    state, the classes and values of the elements its handlers touch, and
    its registered listeners. Elements are named by the fields app.js
    stores them in. */
module Player {
  import opened Wrappers
  import opened Backend
  import Listeners

  /** `hidden` classes of the two images in `.playback-btn`
      (`playbackBtnsImg[0]` play, `[1]` pause), of the overlay play image
      (`playBtnOverlayIcon`) and of the dimming overlay (`pauseOverlay`). */
  datatype TransportIcons = TransportIcons(
    playHidden: bool,
    pauseHidden: bool,
    overlayIconHidden: bool,
    overlayHidden: bool)

  /** `hidden` classes of `volumeUpIcon`, `volumeLowIcon`, `volumeMutedIcon`. */
  datatype VolumeIcons = VolumeIcons(upHidden: bool, lowHidden: bool, mutedHidden: bool)

  /** `hidden` classes of the two images in `.fullscreen-btn`. */
  datatype FullscreenIcons = FullscreenIcons(enterHidden: bool, exitHidden: bool)

  /** The `inView` / `outOfView` classes of one settings list wrapper. */
  datatype ListClasses = ListClasses(inView: bool, outOfView: bool)

  /** The inline `style.height` of the settings menu; before any handler
      writes it the stylesheet height applies. */
  datatype MenuHeight = StylesheetHeight | Px(px: int)

  /** `settingsMenu` and its three list wrappers. */
  datatype Menu = Menu(
    openMenu: bool,
    main: ListClasses,
    secondary: ListClasses,
    tertiary: ListClasses,
    height: MenuHeight)

  /** Text of `playbackRateLabel`: "Normal" or `${rate}x`. */
  datatype RateLabel = Normal | Times(rate: real)

  /** The seek bar's `data-seek` attribute: absent until the first hover,
      then the hovered second, or "NaN" when the bar has no `max` yet. */
  datatype SeekHint = NoHint | Hint(second: int) | NotANumber

  /** `document.fullscreenElement` and `document.pictureInPictureElement`,
      as present / absent, and whether the fullscreen element is the
      player's own `videoContainer` (it is when the platform granted the
      player's request, and is not once some other change happened). */
  datatype Platform = Platform(fullscreen: bool, containerFullscreen: bool, pictureInPicture: bool)

  datatype PlayerState = PlayerState(
    media: Media,
    platform: Platform,
    transport: TransportIcons,
    volumeIcons: VolumeIcons,
    volumeInput: real,
    seekValue: int,
    progressValue: int,
    seekMax: Option<int>,
    progressMax: int,
    seekHint: SeekHint,
    tooltip: string,
    timeElapsed: string,
    durationLabel: string,
    menu: Menu,
    rateLabel: RateLabel,
    fullscreenIcons: FullscreenIcons,
    controlsFullScreen: bool,
    subs: multiset<Listeners.Subscription>,
    generation: nat,
    connected: bool)

  const NoClass := ListClasses(false, false)
  const InView := ListClasses(true, false)
  const OutOfView := ListClasses(false, true)

  /** Exactly one of the three volume images is shown. */
  predicate OneVolumeIcon(v: VolumeIcons) {
    || (!v.upHidden && v.lowHidden && v.mutedHidden)
    || (v.upHidden && !v.lowHidden && v.mutedHidden)
    || (v.upHidden && v.lowHidden && !v.mutedHidden)
  }

  /** The state after the first render (app.js:768-906), before any
      listener is registered. The media element is paused at the start of
      a resource of the given length; the seek bar has no `max` attribute
      and the progress bar has `max="100"`. */
  function Initial(duration: real): (s: PlayerState)
    requires 0.0 <= duration
  {
    PlayerState(
      media := Media(true, false, 0.0, duration, 1.0, false, 1.0),
      platform := Platform(false, false, false),
      transport := TransportIcons(false, true, true, true),
      volumeIcons := VolumeIcons(false, true, true),
      volumeInput := 1.0,
      seekValue := 0,
      progressValue := 0,
      seekMax := None,
      progressMax := 100,
      seekHint := NoHint,
      tooltip := "00:00",
      timeElapsed := "00:00",
      durationLabel := "00:00",
      menu := Menu(false, NoClass, NoClass, NoClass, StylesheetHeight),
      rateLabel := Normal,
      fullscreenIcons := FullscreenIcons(false, true),
      controlsFullScreen := false,
      subs := multiset{},
      generation := 0,
      connected := false)
  }
}

=== FILE: screen.dfy ===
/** Fullscreen and picture-in-picture (app.js:128-152, 207-213 and the
    listeners at 376-393 and 435-447). The platform calls themselves are
    outside the model; what is modelled is which request a handler issues
    and how the icons follow the platform's `fullscreenchange` notification. */
module Screen {
  import opened Wrappers
  import opened Player

  datatype FullscreenRequest = RequestFullscreen | ExitFullscreen

  /** `toggleFullScreen`: leave fullscreen when an element is fullscreen,
      otherwise ask for it on the player's container. */
  function ToggleFullScreen(p: Platform): (r: FullscreenRequest)
    ensures r == ExitFullscreen <==> p.fullscreen
  {
    if p.fullscreen then ExitFullscreen else RequestFullscreen
  }

  /** The platform's state once it grants a request: a granted request
      makes the player's container the fullscreen element, a granted exit
      leaves no fullscreen element. */
  function Grant(p: Platform, request: FullscreenRequest): (q: Platform)
    ensures q.fullscreen <==> request == RequestFullscreen
    ensures q.containerFullscreen <==> request == RequestFullscreen
    ensures q.pictureInPicture == p.pictureInPicture
  {
    p.(fullscreen := request == RequestFullscreen, containerFullscreen := request == RequestFullscreen)
  }

  /** A fullscreen change the platform makes on its own that flips the
      document's state: the user leaves fullscreen through the browser, or
      some other element of the page enters it while nothing is fullscreen.
      Either way the player's container is not the fullscreen element
      afterwards. A change that keeps the document fullscreen is
      `SwitchByPlatform`. */
  function ChangeByPlatform(p: Platform): (q: Platform)
    ensures q.fullscreen == !p.fullscreen && !q.containerFullscreen
    ensures q.pictureInPicture == p.pictureInPicture
  {
    p.(fullscreen := !p.fullscreen, containerFullscreen := false)
  }

  /** A change of the fullscreen element that keeps the document in
      fullscreen: another element of the page takes over from the current
      one, or leaving a nested element returns to the one below it, which
      may be the player's container. `fullscreenchange` fires all the same. */
  function SwitchByPlatform(p: Platform, toContainer: bool): (q: Platform)
    requires p.fullscreen
    ensures q.fullscreen && (q.containerFullscreen <==> toContainer)
    ensures q.pictureInPicture == p.pictureInPicture
  {
    p.(containerFullscreen := toContainer)
  }

  /** The one `fullscreenchange` listener answers such a switch by flipping
      the icons although the document stays fullscreen, so icons that
      showed the platform's state stop showing it. */
  lemma SwitchDesyncs(s: PlayerState, toContainer: bool)
    requires InSync(s) && s.platform.fullscreen
    ensures !InSync(OnFullscreenChange(s.(platform := SwitchByPlatform(s.platform, toContainer))))
  {
  }

  /** A granted toggle always changes the platform's fullscreen state. */
  lemma GrantedToggleFlips(p: Platform)
    ensures Grant(p, ToggleFullScreen(p)).fullscreen == !p.fullscreen
  {
  }

  /** `toggleFullScreenBtn`: each fullscreen image flips its `hidden` class. */
  function ToggleFullScreenBtn(icons: FullscreenIcons): (r: FullscreenIcons)
    ensures r.enterHidden == !icons.enterHidden && r.exitHidden == !icons.exitHidden
    ensures (r.enterHidden != r.exitHidden) == (icons.enterHidden != icons.exitHidden)
  {
    FullscreenIcons(
      enterHidden := if icons.enterHidden then false else true,
      exitHidden := if icons.exitHidden then false else true)
  }

  /** The `fullscreenchange` listener (app.js:435-447), run once per
      registered copy; the layout heights it also writes are not modelled. */
  function OnFullscreenChange(s: PlayerState): (r: PlayerState)
    ensures r.fullscreenIcons == ToggleFullScreenBtn(s.fullscreenIcons)
    ensures r.controlsFullScreen == s.platform.fullscreen
    ensures r == s.(fullscreenIcons := r.fullscreenIcons, controlsFullScreen := r.controlsFullScreen)
  {
    var toggled := s.(fullscreenIcons := ToggleFullScreenBtn(s.fullscreenIcons));
    if toggled.platform.fullscreen then toggled.(controlsFullScreen := true)
    else toggled.(controlsFullScreen := false)
  }

  /** The icons and the control-bar class show what the platform reports. */
  predicate InSync(s: PlayerState) {
    && s.fullscreenIcons.exitHidden == !s.platform.fullscreen
    && s.fullscreenIcons.enterHidden == s.platform.fullscreen
    && s.controlsFullScreen == s.platform.fullscreen
  }

  /** The platform changes its fullscreen state and notifies the one listener. */
  function FullscreenFlip(s: PlayerState): (r: PlayerState)
    ensures r.platform.fullscreen == !s.platform.fullscreen
    ensures InSync(s) ==> InSync(r)
  {
    OnFullscreenChange(s.(platform := ChangeByPlatform(s.platform)))
  }

  /** Icons that started in sync stay in sync over any number of platform
      changes, each answered by one listener. */
  lemma {:induction false} FlipsKeepSync(s: PlayerState, n: nat)
    requires InSync(s)
    ensures InSync(FlipTimes(s, n))
    decreases n
  {
    if n > 0 {
      FlipsKeepSync(FullscreenFlip(s), n - 1);
    }
  }

  function FlipTimes(s: PlayerState, n: nat): PlayerState
    decreases n
  {
    if n == 0 then s else FlipTimes(FullscreenFlip(s), n - 1)
  }

  /** With two copies of the listener registered (a remount under the
      teardown as written) one platform change toggles the icons twice, so
      the icons stop showing the platform's state. */
  lemma DoubledListenerDesyncs(s: PlayerState)
    requires InSync(s)
    ensures var flipped := s.(platform := ChangeByPlatform(s.platform));
            !InSync(OnFullscreenChange(OnFullscreenChange(flipped)))
  {
  }

  /** The Escape branch of the keyboard listener (app.js:386-392): exit
      when fullscreen, nothing otherwise. */
  function EscapeRequest(p: Platform): (r: Option<FullscreenRequest>)
    ensures r.Some? <==> p.fullscreen
    ensures r.Some? ==> r.value == ExitFullscreen
  {
    if p.fullscreen then Some(ExitFullscreen) else None
  }

  datatype PiPDecision = ExitPiP | RequestPiP | PiPNotSupported

  /** `togglePiP`: leave picture-in-picture when an element is in it,
      otherwise enter it when the media element offers the call. */
  function TogglePiP(p: Platform, supported: bool): (r: PiPDecision)
    ensures r == ExitPiP <==> p.pictureInPicture
    ensures r == RequestPiP <==> !p.pictureInPicture && supported
    ensures r == PiPNotSupported <==> !p.pictureInPicture && !supported
  {
    if p.pictureInPicture then ExitPiP
    else if supported then RequestPiP
    else PiPNotSupported
  }

  /** The PiP button's listener. A request the platform rejects is caught
      and logged, and an unsupported platform is only logged: in both
      cases nothing changes. Only the platform's state ever changes. */
  function PiPHandler(s: PlayerState, supported: bool, granted: bool): (r: PlayerState)
    ensures r == s.(platform := r.platform)
    ensures r.platform == s.platform.(pictureInPicture := r.platform.pictureInPicture)
    ensures r.platform.pictureInPicture != s.platform.pictureInPicture <==>
              granted && (s.platform.pictureInPicture || supported)
  {
    match TogglePiP(s.platform, supported)
    case PiPNotSupported => s
    case ExitPiP => if granted then s.(platform := s.platform.(pictureInPicture := false)) else s
    case RequestPiP => if granted then s.(platform := s.platform.(pictureInPicture := true)) else s
  }
}

=== FILE: seek_bar.dfy ===
/** Progress, seeking and the seek preview (app.js:76-126, 215-228): the
    elapsed-time label and both bars follow `currentTime`; a seek moves the
    media and both bars together; the hover preview computes the second
    under the pointer. A handler that throws (an invalid Date, a NaN
    assigned to `currentTime`) stops at the throw, so the writes before it
    stay and the ones after it do not happen. */
module SeekBar {
  import opened Wrappers
  import opened Backend
  import opened Player
  import TimeFormat

  /** `updateTimeElapsed`: the label of the rounded position, or the
      RangeError `toISOString` throws. */
  function UpdateTimeElapsed(s: PlayerState): (r: Result<PlayerState, TimeFormat.DateError>)
    requires Backend.Valid(s.media)
    ensures r.Success? <==> TimeFormat.IsValidDate(Round(s.media.currentTime))
    ensures r.Success? ==> r.value == s.(timeElapsed := r.value.timeElapsed)
    ensures r.Success? && TimeFormat.FourDigitYear(Round(s.media.currentTime)) ==>
              TimeFormat.ShowsWithinHour(r.value.timeElapsed, Round(s.media.currentTime))
  {
    var n := Round(s.media.currentTime);
    match TimeFormat.FormatTime(n)
    case Failure(e) => Failure(e)
    case Success(c) =>
      TimeFormat.FormatShowsWithinHour(n);
      Success(s.(timeElapsed := c.Text()))
  }

  /** `updateProgress`: both bars show the whole seconds played. */
  function UpdateProgress(s: PlayerState): (r: PlayerState)
    ensures r.seekValue == r.progressValue
    ensures r.seekValue as real <= s.media.currentTime < r.seekValue as real + 1.0
    ensures r == s.(seekValue := r.seekValue, progressValue := r.progressValue)
  {
    s.(seekValue := Floor(s.media.currentTime), progressValue := Floor(s.media.currentTime))
  }

  /** The `timeupdate` listener (app.js:335-338). */
  function TimeUpdateHandler(s: PlayerState): (r: PlayerState)
    requires Backend.Valid(s.media)
    ensures r.media == s.media
    ensures TimeFormat.IsValidDate(Round(s.media.currentTime)) ==>
              r.seekValue == r.progressValue && r.seekValue == Floor(s.media.currentTime)
    ensures !TimeFormat.IsValidDate(Round(s.media.currentTime)) ==> r == s
    ensures r == s.(timeElapsed := r.timeElapsed, seekValue := r.seekValue, progressValue := r.progressValue)
  {
    match UpdateTimeElapsed(s)
    case Failure(_) => s
    case Success(t) => UpdateProgress(t)
  }

  /** The position `skipAhead` assigns: `data-seek` when the attribute is
      present, otherwise the bar's own value; "NaN" has no position. */
  function SkipTarget(hint: SeekHint, inputValue: int): (t: Option<int>)
    ensures hint.Hint? ==> t == Some(hint.second)
    ensures hint.NoHint? ==> t == Some(inputValue)
    ensures hint.NotANumber? ==> t.None?
  {
    match hint
    case Hint(n) => Some(n)
    case NoHint => Some(inputValue)
    case NotANumber => None
  }

  /** `skipAhead` on the bar's `input` event: the media seeks and both bars
      show the target. Assigning NaN to `currentTime` throws before any write. */
  function SkipAhead(s: PlayerState, inputValue: int): (r: PlayerState)
    requires Backend.Valid(s.media)
    ensures Backend.Valid(r.media)
    ensures s.seekHint.NotANumber? ==> r == s
    ensures !s.seekHint.NotANumber? ==>
              var t := SkipTarget(s.seekHint, inputValue).value;
              && r.seekValue == t && r.progressValue == t
              && r.media.currentTime == SeekTarget(t as real, s.media.duration)
              && (0 <= t && t as real <= s.media.duration ==> r.media.currentTime == t as real)
    ensures r == s.(media := r.media, seekValue := r.seekValue, progressValue := r.progressValue)
    ensures r.media == s.media.(currentTime := r.media.currentTime, ended := r.media.ended)
  {
    match SkipTarget(s.seekHint, inputValue)
    case None => s
    case Some(t) =>
      s.(media := SetCurrentTime(s.media, t as real), progressValue := t, seekValue := t)
  }

  /** A hovered second takes precedence over the value the bar reports. */
  lemma HoverTakesPrecedence(s: PlayerState, inputValue: int)
    requires Backend.Valid(s.media) && s.seekHint.Hint?
    requires 0 <= s.seekHint.second && s.seekHint.second as real <= s.media.duration
    ensures SkipAhead(s, inputValue).media.currentTime == s.seekHint.second as real
    ensures SkipAhead(s, inputValue) == SkipAhead(s, s.seekHint.second)
  {
  }

  /** After a seek to a whole second inside the resource, the next
      `timeupdate` keeps the media and both bars on that second. */
  lemma SeekThenTimeUpdateAgree(s: PlayerState, inputValue: int)
    requires Backend.Valid(s.media) && s.seekHint.NoHint?
    requires 0 <= inputValue && inputValue as real <= s.media.duration
    requires TimeFormat.IsValidDate(inputValue)
    ensures var r := TimeUpdateHandler(SkipAhead(s, inputValue));
            && r.media.currentTime == inputValue as real
            && r.seekValue == inputValue && r.progressValue == inputValue
  {
    RoundOfWhole(inputValue);
  }

  /** `resetProgressBar`. */
  function ResetProgressBar(s: PlayerState): (r: PlayerState)
    ensures r.seekValue == 0 && r.progressValue == 0
    ensures r == s.(seekValue := 0, progressValue := 0)
  {
    s.(progressValue := 0, seekValue := 0)
  }

  /** The write of line 106 of `rewindTenSeconds`: ten seconds before the
      position left by the branch of lines 102-104. */
  function RewindSecondWrite(m: Media): (t: real)
    requires Backend.Valid(m)
  {
    var first := if m.currentTime <= 10.0 then SetCurrentTime(m, 0.0) else m;
    first.currentTime - 10.0
  }

  /** `rewindTenSeconds` as written: a seek to 0 when within the first ten
      seconds, then unconditionally a seek ten seconds back. Only the
      backend's clamping of negative seeks keeps the result at 0. */
  function RewindAsWritten(m: Media): (r: Media)
    requires Backend.Valid(m)
    ensures Backend.Valid(r)
    ensures m.currentTime <= 10.0 ==> r.currentTime == 0.0
    ensures 10.0 < m.currentTime ==> r.currentTime == m.currentTime - 10.0
    ensures r == m.(currentTime := r.currentTime, ended := r.ended)
  {
    var first := if m.currentTime <= 10.0 then SetCurrentTime(m, 0.0) else m;
    SetCurrentTime(first, first.currentTime - 10.0)
  }

  /** Two copies of the rewind listener answering one click move twenty
      seconds back. */
  lemma RewindTwiceAsWritten(m: Media)
    requires Backend.Valid(m) && 20.0 < m.currentTime
    ensures RewindAsWritten(RewindAsWritten(m)).currentTime == m.currentTime - 20.0
  {
  }

  /** Within the first ten seconds the second write asks for -10. */
  lemma RewindAsWrittenSeeksNegative(m: Media)
    requires Backend.Valid(m) && m.currentTime <= 10.0
    ensures RewindSecondWrite(m) == -10.0
  {
  }

  /** The position the rewind button evidently intends: ten seconds back,
      but never before the start. */
  function RewindTarget(currentTime: real): (t: real)
    requires 0.0 <= currentTime
    ensures 0.0 <= t <= currentTime
    ensures currentTime <= 10.0 ==> t == 0.0
    ensures 10.0 < currentTime ==> t == currentTime - 10.0
  {
    if currentTime <= 10.0 then 0.0 else currentTime - 10.0
  }

  /** The rewind with the intended target: one seek, never negative. */
  function Rewind(m: Media): (r: Media)
    requires Backend.Valid(m)
    ensures Backend.Valid(r)
    ensures r.currentTime == RewindTarget(m.currentTime)
    ensures r == m.(currentTime := r.currentTime, ended := r.ended)
  {
    SetCurrentTime(m, RewindTarget(m.currentTime))
  }

  /** Against a clamping backend the written code and the intended one end
      in the same media state. */
  lemma RewindAsWrittenMatchesClamped(m: Media)
    requires Backend.Valid(m)
    ensures RewindAsWritten(m) == Rewind(m)
  {
  }

  /** The values the rewind button produces at 5 s and at 37 s. */
  lemma RewindExamples(m: Media)
    requires Backend.Valid(m) && 37.0 <= m.duration
    ensures Rewind(m.(currentTime := 5.0)).currentTime == 0.0
    ensures Rewind(m.(currentTime := 37.0)).currentTime == 27.0
  {
  }

  /** `initializeVideo` on `loadedmetadata`: both bars take the rounded
      duration as their `max` and the duration label shows it. */
  function InitializeVideo(s: PlayerState): (r: PlayerState)
    requires Backend.Valid(s.media)
    ensures var d := Round(s.media.duration);
            && (!TimeFormat.IsValidDate(d) ==> r == s)
            && (TimeFormat.IsValidDate(d) ==> r.seekMax == Some(d) && r.progressMax == d)
            && (TimeFormat.FourDigitYear(d) ==> TimeFormat.ShowsWithinHour(r.durationLabel, d))
    ensures r == s.(seekMax := r.seekMax, progressMax := r.progressMax, durationLabel := r.durationLabel)
  {
    var d := Round(s.media.duration);
    match TimeFormat.FormatTime(d)
    case Failure(_) => s
    case Success(c) =>
      TimeFormat.FormatShowsWithinHour(d);
      s.(seekMax := Some(d), progressMax := d, durationLabel := c.Text())
  }

  /** A 125-second resource shows "02:05". */
  lemma DurationLabelExample(s: PlayerState)
    requires Backend.Valid(s.media) && s.media.duration == 125.0
    ensures InitializeVideo(s).durationLabel == "02:05"
  {
    RoundOfWhole(125);
    TimeFormat.FormatExamples();
  }

  /** The second under the pointer (app.js:111-114): `parseInt` of the
      bar's `max` attribute, NaN while the attribute is absent. */
  function PreviewSecond(offsetX: real, width: real, max: Option<int>): (h: SeekHint)
    requires 0.0 < width && 0.0 <= offsetX <= width
    ensures max.None? <==> h.NotANumber?
    ensures max.Some? ==> h.Hint? && var x := offsetX / width * max.value as real;
              x - 0.5 < h.second as real <= x + 0.5
    ensures max.Some? && 0 <= max.value ==> h.Hint? && 0 <= h.second <= max.value
  {
    match max
    case None => NotANumber
    case Some(mx) =>
      ScaledRatioBounds(offsetX, width, mx as real);
      Hint(Round(offsetX / width * mx as real))
  }

  /** A pointer inside the track scales the bar's maximum into [0, max]. */
  lemma ScaledRatioBounds(offsetX: real, width: real, max: real)
    requires 0.0 < width && 0.0 <= offsetX <= width
    ensures 0.0 <= max ==> 0.0 <= offsetX / width * max <= max
  {
    var ratio := offsetX / width;
    assert ratio * width == offsetX;
    assert 0.0 <= ratio <= 1.0;
    if 0.0 <= max {
      assert ratio * max <= 1.0 * max;
    }
  }

  /** `updateSeekTooltip` on `mousemove` over the bar: records the hovered
      second as `data-seek` and shows it in the tooltip; playback is not
      touched. The `padStart(2, "0")` calls meet fields that already have
      two characters. While the bar has no `max`, "NaN" is recorded and
      `formatTime(NaN)` throws before the tooltip is written. */
  function UpdateSeekTooltip(s: PlayerState, offsetX: real, width: real): (r: PlayerState)
    requires 0.0 < width && 0.0 <= offsetX <= width
    ensures r == s.(seekHint := r.seekHint, tooltip := r.tooltip)
    ensures s.seekMax.None? ==> r == s.(seekHint := NotANumber)
    ensures s.seekMax.Some? && 0 <= s.seekMax.value ==>
              r.seekHint.Hint? && 0 <= r.seekHint.second <= s.seekMax.value
    ensures r.seekHint.Hint? && TimeFormat.FourDigitYear(r.seekHint.second) ==>
              TimeFormat.ShowsWithinHour(r.tooltip, r.seekHint.second)
  {
    var h := PreviewSecond(offsetX, width, s.seekMax);
    var hinted := s.(seekHint := h);
    match h
    case Hint(n) =>
      (match TimeFormat.FormatTime(n)
       case Failure(_) => hinted
       case Success(c) =>
         TimeFormat.FormatShowsWithinHour(n);
         hinted.(tooltip := c.Text()))
    case _ => hinted
  }

  /** A hover followed by the bar's `input` seeks to the hovered second,
      whatever value the bar itself reports. */
  lemma HoverThenInputSeeksHovered(s: PlayerState, offsetX: real, width: real, inputValue: int)
    requires Backend.Valid(s.media)
    requires 0.0 < width && 0.0 <= offsetX <= width
    requires s.seekMax.Some? && 0 <= s.seekMax.value && s.seekMax.value as real <= s.media.duration
    ensures var hovered := UpdateSeekTooltip(s, offsetX, width);
            var r := SkipAhead(hovered, inputValue);
            && r.seekValue == r.progressValue == hovered.seekHint.second
            && r.media.currentTime == hovered.seekHint.second as real
  {
  }
}

=== FILE: settings.dfy ===
/** The settings menu (app.js:154-205): the open/closed toggle, the slide
    from the main list to the playback-rate or quality list and back, and
    the playback-rate buttons. Which list is shown follows from the
    stylesheet (app.js:652-721): the main list is on screen unless it has
    `outOfView`; the two sub-lists sit off to the right and slide in only
    with `inView`. */
module Settings {
  import opened Wrappers
  import opened Backend
  import opened Player

  /** The two buttons `updateSettingsUI` is registered on (app.js:415-422).
      The source's implicit third branch (neither button) cannot be taken. */
  datatype SettingsButton = PlaybackRateButton | QualityButton

  /** `updateSettingsUI`: slide the main list out and the chosen list in. */
  function UpdateSettingsUI(m: Menu, target: SettingsButton): (r: Menu)
    ensures r.main == OutOfView
    ensures target == PlaybackRateButton ==>
              r.secondary == InView && r.tertiary == NoClass && r.height == Px(170)
    ensures target == QualityButton ==>
              r.tertiary == InView && r.secondary == NoClass && r.height == m.height
    ensures r.openMenu == m.openMenu
  {
    var cleared := m.(
      main := m.main.(inView := false),
      secondary := m.secondary.(inView := false, outOfView := false),
      tertiary := m.tertiary.(inView := false, outOfView := false));
    var slid := cleared.(main := cleared.main.(outOfView := true));
    match target
    case PlaybackRateButton => slid.(secondary := slid.secondary.(inView := true), height := Px(170))
    case QualityButton => slid.(tertiary := slid.tertiary.(inView := true))
  }

  /** `handleBackButtonClick`: the main list slides back in, both sub-lists out. */
  function HandleBackButtonClick(m: Menu): (r: Menu)
    ensures r.main == InView
    ensures r.secondary == OutOfView && r.tertiary == OutOfView
    ensures r.height == Px(91)
    ensures r.openMenu == m.openMenu
  {
    var removed := m.(
      main := m.main.(outOfView := false),
      secondary := m.secondary.(inView := false),
      tertiary := m.tertiary.(inView := false));
    removed.(
      main := removed.main.(inView := true),
      secondary := removed.secondary.(outOfView := true),
      tertiary := removed.tertiary.(outOfView := true),
      height := Px(91))
  }

  /** `toggleShowSettings`: only `openMenu` changes. */
  function ToggleShowSettings(m: Menu): (r: Menu)
    ensures r.openMenu == !m.openMenu
    ensures r.main == m.main && r.secondary == m.secondary && r.tertiary == m.tertiary
    ensures r.height == m.height
  {
    if m.openMenu then m.(openMenu := false) else m.(openMenu := true)
  }

  /** The three panels of the navigator. */
  datatype Panel = MainPanel | PlaybackRatePanel | QualityPanel

  datatype MenuEvent = Choose(button: SettingsButton) | Back | ToggleOpen

  /** The intended navigator, independent of classes: a button opens its
      panel, back returns to the main panel, and opening or closing the
      menu keeps the panel. */
  function Navigate(p: Panel, e: MenuEvent): Panel {
    match e
    case Choose(PlaybackRateButton) => PlaybackRatePanel
    case Choose(QualityButton) => QualityPanel
    case Back => MainPanel
    case ToggleOpen => p
  }

  /** The list on screen, read off the classes as the stylesheet does. */
  predicate MainShown(m: Menu) { !m.main.outOfView }
  predicate SecondaryShown(m: Menu) { m.secondary.inView }
  predicate TertiaryShown(m: Menu) { m.tertiary.inView }

  /** The class combinations the menu handlers can produce: no list
      carries both classes and exactly one list is on screen. */
  predicate Coherent(m: Menu) {
    && !(m.main.inView && m.main.outOfView)
    && !(m.secondary.inView && m.secondary.outOfView)
    && !(m.tertiary.inView && m.tertiary.outOfView)
    && (if MainShown(m) then !SecondaryShown(m) && !TertiaryShown(m)
        else SecondaryShown(m) != TertiaryShown(m))
  }

  function ActivePanel(m: Menu): Panel {
    if SecondaryShown(m) then PlaybackRatePanel
    else if TertiaryShown(m) then QualityPanel
    else MainPanel
  }

  function ApplyMenu(m: Menu, e: MenuEvent): Menu {
    match e
    case Choose(b) => UpdateSettingsUI(m, b)
    case Back => HandleBackButtonClick(m)
    case ToggleOpen => ToggleShowSettings(m)
  }

  /** Every menu handler keeps the classes coherent and moves the panel on
      screen exactly as the navigator does. */
  lemma ApplyMenuRefinesNavigate(m: Menu, e: MenuEvent)
    requires Coherent(m)
    ensures Coherent(ApplyMenu(m, e))
    ensures ActivePanel(ApplyMenu(m, e)) == Navigate(ActivePanel(m), e)
  {
  }

  function RunMenu(m: Menu, events: seq<MenuEvent>): Menu
    decreases |events|
  {
    if events == [] then m else RunMenu(ApplyMenu(m, events[0]), events[1..])
  }

  function RunNavigate(p: Panel, events: seq<MenuEvent>): Panel
    decreases |events|
  {
    if events == [] then p else RunNavigate(Navigate(p, events[0]), events[1..])
  }

  /** For any sequence of clicks the two sub-lists are never both on
      screen, and the menu shows the panel the navigator reaches. */
  lemma {:induction false} RunMenuRefinesNavigate(m: Menu, events: seq<MenuEvent>)
    requires Coherent(m)
    ensures Coherent(RunMenu(m, events))
    ensures !(SecondaryShown(RunMenu(m, events)) && TertiaryShown(RunMenu(m, events)))
    ensures ActivePanel(RunMenu(m, events)) == RunNavigate(ActivePanel(m), events)
    decreases |events|
  {
    if events != [] {
      ApplyMenuRefinesNavigate(m, events[0]);
      RunMenuRefinesNavigate(ApplyMenu(m, events[0]), events[1..]);
    }
  }

  /** The menu as first rendered shows the main list. */
  lemma InitialMenuCoherent()
    ensures Coherent(Menu(false, NoClass, NoClass, NoClass, StylesheetHeight))
    ensures ActivePanel(Menu(false, NoClass, NoClass, NoClass, StylesheetHeight)) == MainPanel
  {
  }

  /** Closing and reopening the menu returns to the panel left open. */
  lemma ReopenKeepsPanel(m: Menu)
    ensures ToggleShowSettings(ToggleShowSettings(m)) == m
  {
  }

  /** `updatePlaybackRate` with the parsed `data-rate` of the clicked
      button; an unparsable rate is only logged. */
  function UpdatePlaybackRate(s: PlayerState, rate: Option<real>): (r: PlayerState)
    ensures rate.None? ==> r == s
    ensures rate.Some? ==> r.media.playbackRate == rate.value
    ensures rate.Some? ==> (r.rateLabel == Normal <==> rate.value == 1.0)
    ensures rate.Some? && rate.value != 1.0 ==> r.rateLabel == Times(rate.value)
    ensures r == s.(media := r.media, rateLabel := r.rateLabel)
    ensures r.media == s.media.(playbackRate := r.media.playbackRate)
  {
    match rate
    case None => s
    case Some(v) =>
      var withRate := s.(media := s.media.(playbackRate := v));
      if withRate.media.playbackRate == 1.0 then withRate.(rateLabel := Normal)
      else withRate.(rateLabel := Times(v))
  }

  /** Choosing a rate twice is the same as choosing it once. */
  lemma UpdatePlaybackRateIdempotent(s: PlayerState, rate: Option<real>)
    ensures UpdatePlaybackRate(UpdatePlaybackRate(s, rate), rate) == UpdatePlaybackRate(s, rate)
  {
  }
}

=== FILE: time_format.dfy ===
/** `formatTime` (app.js:45-51): the elapsed-time, duration and tooltip labels
    are cut out of `new Date(seconds * 1000).toISOString()`. The model builds
    the same characters from the time-of-day arithmetic that `toISOString`
    performs and slices them at the offsets the source uses. */
module TimeFormat {
  import opened Wrappers

  /** A JavaScript Date holds at most 8.64e15 ms either side of the epoch;
      beyond that `toISOString` throws a RangeError. */
  const MaxDateSeconds: int := 8_640_000_000_000

  /** 0000-01-01T00:00:00Z and 10000-01-01T00:00:00Z in seconds since the
      epoch. Between them `toISOString` writes a four-digit year; outside it
      writes a signed six-digit year, three characters longer. */
  const FirstFourDigitYearSecond: int := -62_167_219_200
  const FirstExtendedYearSecond: int := 253_402_300_800

  const SecondsPerDay: int := 86400

  /** The two fields `formatTime` returns. */
  datatype Clock = Clock(minutes: string, seconds: string)
  {
    /** The text written by `updateTimeElapsed`, `initializeVideo` and the tooltip. */
    function Text(): string {
      minutes + ":" + seconds
    }
  }

  datatype DateError = InvalidTimeValue

  predicate IsDigit(c: char) {
    '0' <= c <= '9'
  }

  function DigitValue(c: char): nat
    requires IsDigit(c)
  {
    c as int - '0' as int
  }

  function DigitChar(d: nat): (c: char)
    requires d < 10
    ensures IsDigit(c) && DigitValue(c) == d
  {
    ('0' as int + d) as char
  }

  predicate IsTwoDigits(t: string) {
    |t| == 2 && IsDigit(t[0]) && IsDigit(t[1])
  }

  /** The number a two-digit field reads as. */
  function TwoDigitValue(t: string): nat
    requires IsTwoDigits(t)
  {
    10 * DigitValue(t[0]) + DigitValue(t[1])
  }

  /** A zero-padded two-digit field, as `toISOString` writes hours, minutes and seconds. */
  function Pad2(n: nat): (t: string)
    requires n < 100
    ensures IsTwoDigits(t) && TwoDigitValue(t) == n
  {
    [DigitChar(n / 10), DigitChar(n % 10)]
  }

  /** Reading a field back and padding it again gives the same characters. */
  lemma Pad2OfValue(t: string)
    requires IsTwoDigits(t)
    ensures Pad2(TwoDigitValue(t)) == t
  {
    var p := Pad2(TwoDigitValue(t));
    assert DigitValue(p[0]) == DigitValue(t[0]);
    assert DigitValue(p[1]) == DigitValue(t[1]);
  }

  /** Two fields that read as the same number are the same characters. */
  lemma TwoDigitsInjective(a: string, b: string)
    requires IsTwoDigits(a) && IsTwoDigits(b)
    requires TwoDigitValue(a) == TwoDigitValue(b)
    ensures a == b
  {
    Pad2OfValue(a);
    Pad2OfValue(b);
  }

  predicate IsValidDate(s: int) {
    -MaxDateSeconds <= s <= MaxDateSeconds
  }

  predicate FourDigitYear(s: int) {
    FirstFourDigitYearSecond <= s < FirstExtendedYearSecond
  }

  /** The eight characters `toISOString` writes at offsets 11..19 when the
      year has four digits: "HH:mm:ss" of the UTC time of day. */
  function IsoTimeWindow(s: int): (w: string)
    ensures |w| == 8
  {
    var tod := s % SecondsPerDay;
    Pad2(tod / 3600) + ":" + Pad2(tod % 3600 / 60) + ":" + Pad2(tod % 60)
  }

  /** Euclidean division is determined by any decomposition with an in-range remainder. */
  lemma DivModUnique(s: int, d: int, k: int, m: int)
    requires 0 < d && s == d * k + m && 0 <= m < d
    ensures s / d == k && s % d == m
  {
    var q, r := s / d, s % d;
    assert d * (q - k) == m - r;
    MultipleOutsideBand(d, q - k);
  }

  /** A non-zero multiple of `d` is at least `d` away from zero. */
  lemma MultipleOutsideBand(d: int, x: int)
    requires 0 < d
    ensures 1 <= x ==> d <= d * x
    ensures x <= -1 ==> d * x <= -d
  {
    if 1 <= x {
      assert d * x == d * (x - 1) + d;
    } else if x <= -1 {
      assert d * x == -(d * (-x - 1)) - d;
    }
  }

  /** The fields of the time of day agree with the fields of the whole count. */
  lemma TimeOfDayFields(s: int)
    ensures (s % SecondsPerDay) % 60 == s % 60
    ensures (s % SecondsPerDay) % 3600 / 60 == s / 60 % 60
    ensures (s % SecondsPerDay) / 3600 == s / 3600 % 24
  {
    var q, r := s / SecondsPerDay, s % SecondsPerDay;
    var a, b := r / 3600, r % 3600;
    var c, e := b / 60, b % 60;
    assert s == 86400 * q + 3600 * a + 60 * c + e;
    DivModUnique(s, 60, 1440 * q + 60 * a + c, e);
    DivModUnique(s / 60, 60, 24 * q + a, c);
    DivModUnique(s, 3600, 24 * q + a, 60 * c + e);
    DivModUnique(s / 3600, 24, q, a);
  }

  /** `formatTime(seconds)` for the whole number of seconds its callers pass.
      An out-of-range Date fails as `toISOString` does; with a six-digit
      year the fixed offsets land one field early, so the "minutes" show
      the hour and the "seconds" show the minute. */
  function FormatTime(s: int): (r: Result<Clock, DateError>)
    ensures r.Failure? <==> !IsValidDate(s)
    ensures r.Success? ==> IsTwoDigits(r.value.minutes) && IsTwoDigits(r.value.seconds)
    ensures r.Success? && FourDigitYear(s) ==>
              TwoDigitValue(r.value.minutes) == s / 60 % 60 && TwoDigitValue(r.value.seconds) == s % 60
    ensures r.Success? && !FourDigitYear(s) ==>
              TwoDigitValue(r.value.minutes) == s / 3600 % 24 && TwoDigitValue(r.value.seconds) == s / 60 % 60
  {
    TimeOfDayFields(s);
    var tod := s % SecondsPerDay;
    if !IsValidDate(s) then
      Failure(InvalidTimeValue)
    else if FourDigitYear(s) then
      var w := IsoTimeWindow(s);
      assert w[3..5] == Pad2(tod % 3600 / 60);
      assert w[6..8] == Pad2(tod % 60);
      Success(Clock(w[3..5], w[6..8]))
    else
      // "DDTHH:mm": the window now starts at the day of the month.
      Success(Clock(Pad2(tod / 3600), Pad2(tod % 3600 / 60)))
  }

  /** Below one hour the two fields recompose the input exactly. */
  lemma FormatBelowHourRecomposes(s: int)
    requires 0 <= s < 3600
    ensures FormatTime(s).Success?
    ensures var c := FormatTime(s).value;
            60 * TwoDigitValue(c.minutes) + TwoDigitValue(c.seconds) == s
  {
  }

  /** Hours are dropped: adding an hour changes neither field. */
  lemma FormatDropsHours(s: int)
    requires FourDigitYear(s) && FourDigitYear(s + 3600)
    requires IsValidDate(s) && IsValidDate(s + 3600)
    ensures FormatTime(s + 3600) == FormatTime(s)
  {
    var a, b := FormatTime(s).value, FormatTime(s + 3600).value;
    DivModUnique(s + 3600, 60, s / 60 + 60, s % 60);
    DivModUnique(s / 60 + 60, 60, s / 60 / 60 + 1, s / 60 % 60);
    TwoDigitsInjective(a.minutes, b.minutes);
    TwoDigitsInjective(a.seconds, b.seconds);
  }

  /** The values the labels show at the boundaries of the display. */
  lemma FormatExamples()
    ensures FormatTime(0) == Success(Clock("00", "00"))
    ensures FormatTime(65) == Success(Clock("01", "05"))
    ensures FormatTime(125) == Success(Clock("02", "05"))
    ensures FormatTime(3599) == Success(Clock("59", "59"))
    ensures FormatTime(3600) == Success(Clock("00", "00"))
  {
    ClockIs(0, "00", "00");
    ClockIs(65, "01", "05");
    ClockIs(125, "02", "05");
    ClockIs(3599, "59", "59");
    ClockIs(3600, "00", "00");
  }

  /** Pins the characters of a four-digit-year result by the values of its fields. */
  lemma ClockIs(s: int, minutes: string, seconds: string)
    requires IsValidDate(s) && FourDigitYear(s)
    requires IsTwoDigits(minutes) && TwoDigitValue(minutes) == s / 60 % 60
    requires IsTwoDigits(seconds) && TwoDigitValue(seconds) == s % 60
    ensures FormatTime(s) == Success(Clock(minutes, seconds))
  {
    var c := FormatTime(s).value;
    TwoDigitsInjective(c.minutes, minutes);
    TwoDigitsInjective(c.seconds, seconds);
  }

  /** A "mm:ss" text that reads as `n` seconds past the last full hour. */
  predicate ShowsWithinHour(text: string, n: int) {
    && |text| == 5
    && text[2] == ':'
    && IsTwoDigits(text[..2])
    && IsTwoDigits(text[3..])
    && 60 * TwoDigitValue(text[..2]) + TwoDigitValue(text[3..]) == n % 3600
  }

  /** The text built from `formatTime(n)` shows `n` modulo one hour. */
  lemma {:induction false} FormatShowsWithinHour(n: int)
    ensures FourDigitYear(n) ==> IsValidDate(n) && ShowsWithinHour(FormatTime(n).value.Text(), n)
  {
    if !FourDigitYear(n) {
      return;
    }
    var c := FormatTime(n).value;
    var text := c.Text();
    assert text[..2] == c.minutes && text[3..] == c.seconds;
    var a := n / 60;
    DivModUnique(n, 3600, a / 60, 60 * (a % 60) + n % 60);
  }
}

=== FILE: transport.dfy ===
/** Transport and volume mirroring (app.js:10-74): the play/pause toggle,
    the icons that follow the transport state, and the volume slider, mute
    button and the three volume icons. */
module Transport {
  import opened Backend
  import opened Player

  /** `togglePlay`: play when paused or ended, pause otherwise. */
  function TogglePlay(m: Media): (r: Media)
    requires Backend.Valid(m)
    ensures Backend.Valid(r)
    ensures r.paused == !(m.paused || m.ended)
    ensures !m.ended ==> r.currentTime == m.currentTime
    ensures m.ended && 0.0 < m.duration ==> r.currentTime == 0.0 && !r.ended
    ensures r.volume == m.volume && r.muted == m.muted
    ensures r.playbackRate == m.playbackRate && r.duration == m.duration
  {
    if m.paused || m.ended then Play(m) else Pause(m)
  }

  /** `updatePauseState`: the icons that follow the transport state. */
  function PauseStateIcons(m: Media): (r: TransportIcons)
    ensures !r.playHidden <==> m.paused || m.ended
    ensures r.pauseHidden == !r.playHidden
    ensures r.overlayIconHidden == r.playHidden && r.overlayHidden == r.playHidden
  {
    if m.paused || m.ended then
      TransportIcons(playHidden := false, pauseHidden := true, overlayIconHidden := false, overlayHidden := false)
    else
      TransportIcons(playHidden := true, pauseHidden := false, overlayIconHidden := true, overlayHidden := true)
  }

  function UpdatePauseState(s: PlayerState): (r: PlayerState)
    ensures r.transport == PauseStateIcons(s.media)
    ensures r.transport.playHidden != r.transport.pauseHidden
    ensures !r.transport.playHidden <==> s.media.paused || s.media.ended
    ensures r == s.(transport := r.transport)
  {
    s.(transport := PauseStateIcons(s.media))
  }

  /** The listener shared by the play button, the overlay, its image and
      the video itself (app.js:321-324), and the Space key (app.js:378-382). */
  function PlaybackHandler(s: PlayerState): (r: PlayerState)
    requires Backend.Valid(s.media)
    ensures Backend.Valid(r.media)
    ensures r.media.paused == !(s.media.paused || s.media.ended)
    ensures !r.transport.playHidden <==> r.media.paused || r.media.ended
    ensures r.transport.pauseHidden == !r.transport.playHidden
    ensures r == s.(media := r.media, transport := r.transport)
  {
    UpdatePauseState(s.(media := TogglePlay(s.media)))
  }

  /** Two copies of the playback listener answering one click cancel out:
      media that had not ended is left playing or paused as it was, and the
      icons show that state again. */
  lemma PlaybackTwiceCancels(s: PlayerState)
    requires Backend.Valid(s.media) && !s.media.ended
    ensures PlaybackHandler(PlaybackHandler(s)).media.paused == s.media.paused
    ensures PlaybackHandler(PlaybackHandler(s)).transport == PauseStateIcons(s.media)
  {
  }

  /** With a non-empty resource and icons that showed the transport state,
      one activation flips which of play and pause is shown. */
  lemma PlaybackFlipsIcons(s: PlayerState)
    requires Backend.Valid(s.media) && 0.0 < s.media.duration
    requires s.transport == PauseStateIcons(s.media)
    ensures PlaybackHandler(s).transport.playHidden == !s.transport.playHidden
    ensures PlaybackHandler(s).transport.pauseHidden == !s.transport.pauseHidden
  {
  }

  /** `updateVolumeIcons` for the slider value `v`. */
  function VolumeIconsFor(v: real): (r: VolumeIcons)
    ensures OneVolumeIcon(r)
    ensures !r.mutedHidden <==> v == 0.0
    ensures !r.upHidden <==> v > 0.5
    ensures !r.lowHidden <==> v != 0.0 && v <= 0.5
  {
    if v == 0.0 then
      VolumeIcons(upHidden := true, lowHidden := true, mutedHidden := false)
    else if v > 0.5 then
      VolumeIcons(upHidden := false, lowHidden := true, mutedHidden := true)
    else
      VolumeIcons(upHidden := true, lowHidden := false, mutedHidden := true)
  }

  /** On the slider's range [0, 1] the three icons partition the values at 0 and 0.5. */
  lemma VolumeIconThresholds(v: real)
    requires 0.0 <= v <= 1.0
    ensures !VolumeIconsFor(v).lowHidden <==> 0.0 < v <= 0.5
    ensures !VolumeIconsFor(v).upHidden <==> 0.5 < v <= 1.0
  {
  }

  /** `updateVolume`: unmute, then take the slider's value. */
  function UpdateVolume(m: Media, input: real): (r: Media)
    requires Backend.Valid(m) && 0.0 <= input <= 1.0
    ensures Backend.Valid(r)
    ensures !r.muted && r.volume == input
    ensures r.(muted := m.muted, volume := m.volume) == m
  {
    var unmuted := if m.muted then m.(muted := false) else m;
    unmuted.(volume := input)
  }

  /** `updateVolumeBtns`: the media takes the slider's value and the icons follow it. */
  function UpdateVolumeBtns(s: PlayerState): (r: PlayerState)
    requires 0.0 <= s.volumeInput <= 1.0
    ensures r.media.volume == r.volumeInput == s.volumeInput
    ensures OneVolumeIcon(r.volumeIcons)
    ensures !r.volumeIcons.mutedHidden <==> r.volumeInput == 0.0
    ensures r == s.(media := r.media, volumeIcons := r.volumeIcons)
    ensures r.media == s.media.(volume := s.volumeInput)
  {
    s.(media := s.media.(volume := s.volumeInput), volumeIcons := VolumeIconsFor(s.volumeInput))
  }

  /** The slider's `change` listener (app.js:326-329). */
  function VolumeHandler(s: PlayerState): (r: PlayerState)
    requires Backend.Valid(s.media) && 0.0 <= s.volumeInput <= 1.0
    ensures Backend.Valid(r.media)
    ensures !r.media.muted && r.media.volume == s.volumeInput
    ensures r.volumeIcons == VolumeIconsFor(s.volumeInput)
    ensures r == s.(media := r.media, volumeIcons := r.volumeIcons)
  {
    UpdateVolumeBtns(s.(media := UpdateVolume(s.media, s.volumeInput)))
  }

  /** `toggleMute`: a volume of exactly 0 becomes 1, anything else becomes
      0; the previous level is not remembered. */
  function ToggleMute(s: PlayerState): (r: PlayerState)
    ensures r.volumeInput == 0.0 || r.volumeInput == 1.0
    ensures r.volumeInput == 1.0 <==> s.media.volume == 0.0
    ensures r.media.volume == r.volumeInput
    ensures OneVolumeIcon(r.volumeIcons)
    ensures !r.volumeIcons.mutedHidden <==> r.media.volume == 0.0
    ensures !r.volumeIcons.upHidden <==> r.media.volume == 1.0
    ensures r == s.(media := r.media, volumeInput := r.volumeInput, volumeIcons := r.volumeIcons)
    ensures r.media == s.media.(volume := r.volumeInput)
  {
    var withInput := s.(volumeInput := if s.media.volume == 0.0 then 1.0 else 0.0);
    var withVolume := withInput.(media := withInput.media.(volume := withInput.volumeInput));
    withVolume.(volumeIcons := VolumeIconsFor(withVolume.volumeInput))
  }

  /** Muting twice restores a volume of 0 or 1 exactly. */
  lemma ToggleMuteTwiceRestoresExtremes(s: PlayerState)
    requires s.media.volume == 0.0 || s.media.volume == 1.0
    ensures ToggleMute(ToggleMute(s)).media == s.media
  {
  }

  /** Any other level is lost: 0.3 is muted to 0 and unmuted to 1. */
  lemma ToggleMuteForgetsLevel(s: PlayerState)
    requires s.media.volume == 0.3
    ensures ToggleMute(s).media.volume == 0.0
    ensures ToggleMute(ToggleMute(s)).media.volume == 1.0
  {
  }

  /** From full volume, two presses of the mute button show the up icon,
      then the muted icon, then the up icon again. */
  lemma MuteTwiceIconSequence(s: PlayerState)
    requires s.media.volume == 1.0 && s.volumeIcons == VolumeIconsFor(1.0)
    ensures !s.volumeIcons.upHidden
    ensures !ToggleMute(s).volumeIcons.mutedHidden
    ensures !ToggleMute(ToggleMute(s)).volumeIcons.upHidden
  {
  }
}

=== FILE: wrappers.dfy ===
/** Failure-compatible result types used throughout the model: an `Option`
    for values the DOM may not hold (a missing attribute, an unparsable
    number) and a `Result` for operations the JavaScript runtime aborts
    with an exception. */
module Wrappers {

  datatype Option<+T> = None | Some(value: T)

  datatype Result<+R, +E> = Success(value: R) | Failure(error: E)
}
